=== FILE: README.md ===
# Student feedback portal — decision logic in Dafny

The portal is a Django application. Students sign up, submit feedback (typed text or an audio
recording, plus up to five 1–5 ratings) on a category of their department, and may do so
anonymously. Department coordinators approve or reject pending students, read their department's
feedback, ask a language model for a summary of selected entries, and look at sentiment charts.
Submissions are enriched by the same model: an audio file is transcribed, and the text, or a
sentence built from the ratings, is classified as POSITIVE, NEGATIVE or NEUTRAL.

This project models the pure decision layer of `core/forms.py`, `core/views.py` and `core/models.py`.
The ORM becomes sequences of immutable records. HTTP becomes function arguments and outcome
datatypes. The language-model client becomes oracle functions in a `Gateway` record, whose replies
are inputs.

Modules:

- `Wrappers`: `Option`.
- `Strings`: Python's `str` operations that the code relies on. These are `strip` (over the
  `str.isspace` set), `upper`/`lower`, `" ".join`, `split(' ', 1)`, `str(int)`, and the ascending
  order of text keys.
- `Models`: choice tables, rating labels, defaults, records, and the `__str__` helpers.
- `Forms`: the feedback form's `clean`, the rating fields, and the sign-up form's checks and `save`.
- `Enrichment`: the transcription and sentiment helpers, the synthetic rating text, the
  enrichment pipeline and the submission view.
- `Guards`: the view/delete/revoke guards for feedback, and approve/reject for students.
- `Summarize`: the all-or-nothing batch check, the context renderer and the reply handling.
- `Analytics`: the pie chart (sentiment distribution) and the bar chart (positive/negative per
  category).

Feedback rows are kept in the order of `Meta.ordering` (`-timestamp`), and ids are unique, as a
primary key is. Department references are `Option<nat>`. As in Django, an absent department equals
another absent department, so a coordinator whose department was deleted matches rows whose
department was nulled. `Guards.NullDepartmentsMatch` states this.

Two behaviours of the transcription step are worth stating plainly:

- Transcription placeholders do overwrite the text. A transcriber failure returns a non-empty
  placeholder, `[Transcription failed or audio was empty]` or `[Audio transcription failed due to
  an error: …]` (core/views.py:138, 143). Since it is truthy, it replaces `text_feedback`
  (core/views.py:209-210).
- Two cases leave the text unchanged, not only the unconfigured key. One is a missing API key,
  which returns `None`. The other is a reply that is non-empty but entirely whitespace, which is
  stripped to `""`.

The question table is the second binding of `HARDCODED_CATEGORY_QUESTIONS` (core/views.py:374-382).
It shadows the first (core/views.py:91-99), so both the submission and summarisation paths read it.
Its LIBRARY fifth question is "Overall effectiveness of library services?".

## Model

| member | source | states |
|---|---|---|
| Strings.Strip | core/forms.py:198 | the stripped text has no leading or trailing whitespace, and is empty exactly when the input is all whitespace |
| Models.RoleDisplay | core/models.py:20-24 | the display label returned is the one paired with the role's stored key in `ROLE_CHOICES` |
| Models.ParseSentiment | core/models.py:94-98 | a stored value parses exactly when it is a key of `SENTIMENT_CHOICES`, and parsing inverts the stored key of every sentiment |
| Models.Lookup | core/views.py:373-382 | a dictionary lookup finds a value exactly when some entry has the key, and the value found is paired with that key |
| Models.LookupDistinct | core/views.py:373-382 | with distinct keys, each key finds its own entry's value |
| Models.CategoryDisplay | core/models.py:63-71 | a known category key shows its `CATEGORY_CHOICES` label; an unknown key falls back to itself |
| Models.CategoryKeysDistinct | core/models.py:63-71 | there are seven category keys and no two are equal |
| Models.RatingLabel | core/models.py:82-88 | a rating has a descriptive label exactly when it lies between 1 and 5 |
| Models.RatingChoicesMatchLabels | core/models.py:82-91 | the five numeric choices are 1..5 in order, each paired with its descriptive label, and a value is a choice iff it has a label |
| Models.AnonymitySuffix | core/models.py:178-182 | no suffix iff not anonymous; " (Anonymous)" iff anonymous and not revoked; " (Anonymity Revoked)" iff anonymous and revoked |
| Models.ProfileStrParts | core/models.py:57-60 | the profile string starts with the full name when it is truthy, else with the username; " - " and the role label follow the name; it ends in " (Verified)" exactly when the profile is verified and in " (Pending)" exactly when it is not |
| Models.FeedbackStr | core/models.py:176-189 | the feedback string starts with "Feedback by " and the owner's username, and ends with the anonymity suffix followed by " on " and the timestamp |
| Models.InputMethodKeys | core/models.py:135-138 | the input-method choice keys are exactly the stored keys of the two methods, and those keys differ |
| Models.PhotoPathParts | core/models.py:8-10 | for a username without '/', the upload path is `profile_photos/`, then the username up to the first '/', then exactly the filename |
| Models.YearChoices | core/models.py:26-28 | the choice list has one entry per year of the half-open range, each pairing the year with its decimal text |
| Models.BatchYearMembership | core/models.py:26-28 | a batch year is offered exactly when it lies between 2015 and next year inclusive |
| Forms.Clean | core/forms.py:193-207 | no errors iff the submission is acceptable; the text-field error, the audio-field error and the form-wide error each appear exactly under their own condition, at most two errors are raised, and exactly the fields given an error are removed from the cleaned data |
| Forms.TextModeAudioOnlyRejected | core/forms.py:201-206 | text mode with only an audio file is rejected with the single text-field error |
| Forms.EmptySubmissionTwoErrors | core/forms.py:201-206 | a submission with a chosen method but no text, audio or rating carries two errors, the second being the form-wide one |
| Forms.CleanRating | core/forms.py:124-130 | a missing or empty value is no rating; an accepted value is 1..5 and is the decimal text of its number; every other value is an invalid choice |
| Forms.RatingChoiceRoundTrip | core/forms.py:124-130 | every offered rating choice is cleaned back to the same number |
| Forms.CleanCategory | core/forms.py:112-116 | the category is valid exactly when a non-empty value names an existing category, and keeps that value; an empty value gets the required-field message and no other value does |
| Forms.CleanInputMethod | core/forms.py:118-122 | the input method is valid exactly when the value is a key of `INPUT_METHOD_CHOICES`, and maps back to the method with that key; an empty value gets the required-field message and no other value does |
| Forms.RatingValue | core/forms.py:124-130 | a rating `clean()` reads is present exactly when the posted value is one of the choice keys "1".."5", and is then the number whose decimal text was posted; a missing, empty or invalid value reads as absent |
| Forms.CleanRatings | core/forms.py:124-158 | each rating `clean()` reads is its field's cleaned value, with a failed field read as absent; every rating read is within 1..5; some rating is read exactly when some field posted a choice key; no posted ratings read as no ratings |
| Forms.RatingErrors | core/forms.py:124-158 | a rating field carries an error exactly when its value is an invalid choice, and there are no rating errors exactly when every rating field cleans |
| Forms.CleanedData | core/forms.py:110-168 | the data left for `clean()` has a category and an input method exactly when those fields cleaned, holding the posted values; its text is the posted text with surrounding whitespace stripped (so it has text exactly when the post is not blank), and it carries the posted audio, anonymity flag and cleaned ratings |
| Forms.FieldErrors | core/forms.py:110-168 | the field pass reports an error on the category, on the input method and on each rating field exactly when that field fails, and none otherwise |
| Forms.FormErrors | core/forms.py:110-207 | the form is valid exactly when every field cleans and the acceptance rule holds on the cleaned data; the field errors come first |
| Forms.MissingCategoryRejected | core/forms.py:112-116 | a post without a category carries the required-field error on the category field |
| Forms.InvalidRatingRejected | core/forms.py:124-158 | a rating outside the choices makes the form invalid |
| Forms.CleanEnrollmentId | core/forms.py:64-68 | the id is accepted, unchanged, exactly when no user has it as username |
| Forms.CleanEmail | core/forms.py:71-75 | the address is accepted exactly when its lower-cased form is unregistered, and the lower-cased form (itself lower-case) is kept |
| Forms.CleanEmailCaseInsensitive | core/forms.py:71-75 | two addresses that differ only in letter case are cleaned alike |
| Forms.SplitFullName | core/forms.py:87-92 | the first part has no space; there is a rest exactly when the name has a space, and first + " " + rest rebuilds the name |
| Forms.SplitFullNameJoin | core/forms.py:87-92 | splitting a space-free first name joined to any rest recovers both |
| Forms.SaveSignup | core/forms.py:78-105 | the new user is inactive and named after the enrollment id; the profile is an unverified student whose enrollment number mirrors the id, with first/last name split from the full name |
| Forms.Signup | core/forms.py:64-105 | a user is registered exactly when neither the id nor the lower-cased address is taken; the stored address is the lower-cased one and the account starts inactive and unverified |
| Enrichment.QuestionTableShape | core/views.py:374-382 | the question table holds one entry per category key, in the model's category order, each with five questions |
| Enrichment.Questions | core/views.py:374-382 | a category has five questions exactly when it is one of the category keys, and none otherwise |
| Enrichment.TranscriptionErrorPlaceholder | core/views.py:140-143 | the error placeholder is non-empty and starts with '[' |
| Enrichment.Transcribe | core/views.py:103-143 | None exactly without a key; a non-empty reply yields its stripped text, which has no surrounding whitespace left; an empty reply gives the empty-audio placeholder, and an exception the error placeholder |
| Enrichment.TranscriptTruthy | core/views.py:108-143 | the transcript is truthy exactly when a key is set and the reply is not a non-empty all-whitespace text; a truthy transcript has content |
| Enrichment.AnalyzeSentiment | core/views.py:147-180 | None exactly when there is no key, the text is empty or the call raised; otherwise the label is the stripped, upper-cased reply when it names a sentiment, or NEUTRAL |
| Enrichment.NormaliseReplyCaseInsensitive | core/views.py:169-173 | a reply naming a sentiment in any letter case, padded with whitespace, normalises to that sentiment |
| Enrichment.NormaliseReplyFallback | core/views.py:174-176 | a reply that names no sentiment normalises to NEUTRAL |
| Enrichment.SyntheticPartsSpec | core/views.py:222-231 | the parts hold one sentence per rated slot that has a question, in slot order, at the position given by the number of such slots before it |
| Enrichment.SyntheticPartsEmpty | core/views.py:222-231 | there are no parts exactly when no slot is both rated and backed by a question |
| Enrichment.PartsAreSentences | core/views.py:226-230 | every part is a rating sentence starting "For" |
| Enrichment.SyntheticTextEmpty | core/views.py:222-232 | the synthetic text is empty exactly when no slot yields a sentence: always for an unknown category, and for a known one exactly when nothing is rated |
| Enrichment.SyntheticTextNotBlank | core/views.py:232-236 | a non-empty synthetic text is never all whitespace, so it is always classified |
| Enrichment.SyntheticTextTeachingExample | core/views.py:226-232 | TEACHING rated Excellent and Good on the first two questions gives the two sentences joined by one space |
| Enrichment.AnalysisTextContent | core/views.py:205-220 | the analysis text has content exactly when the text has, or a rating was given on a category with questions; real content is analysed unchanged |
| Enrichment.Enrich | core/views.py:205-240 | only text and sentiment change; in audio mode with a file a truthy transcript replaces the text and any other leaves it, and outside that case the text is kept; a non-blank analysis text that the classifier answers gets the normalised label, and the sentiment changes in no other case |
| Enrichment.FailurePlaceholderOverwrites | core/views.py:207-211 | a failed or empty transcription overwrites the text with a placeholder starting '[' |
| Enrichment.NoKeyNoEnrichment | core/views.py:205-240 | without an API key the record is saved exactly as submitted |
| Enrichment.RatingOnlyClassifiedOnSyntheticText | core/views.py:219-239 | a rating-only submission on a known category is classified on its synthetic text |
| Enrichment.RatingOnlyTextPostSubmitted | core/forms.py:193-207 | a text-mode post with a known category, a blank comment and only valid or absent ratings, one of them given, is submitted for a submitter with a department, and the stored record is rated |
| Enrichment.SubmitFeedback | core/views.py:185-246 | the submitter is turned away exactly when they have no department; a record is created exactly when every field cleans and the acceptance rule holds, and otherwise the form's errors are reported; the record is the enrichment of the created one, belongs to the submitter, carries their department and the posted fields with ratings in 1..5, is not revoked, and has some content; without transcription its text is the posted text stripped of surrounding whitespace |
| Guards.Find | core/views.py:258 | a found position holds the id; nothing is found exactly when no row has the id |
| Guards.ViewFeedback | core/views.py:257-269 | an unknown id is not found; the feedback is shown exactly when the viewer owns it or is a coordinator of its department; a refused viewer goes to the coordinator dashboard iff they are a coordinator |
| Guards.NullDepartmentsMatch | core/views.py:261 | a coordinator without a department may view feedback whose department is null |
| Guards.DeleteFeedback | core/views.py:272-279 | deletion happens exactly when the row exists and belongs to the actor, and removes exactly that row; otherwise nothing changes |
| Guards.RevokeAnonymity | core/views.py:359-370 | revocation happens exactly for the owner of an existing anonymous row; it sets only that row's revoked flag, and no other row or field changes |
| Guards.RevokeMonotone | core/views.py:359-370 | a revoked anonymity is never restored |
| Guards.RevokeIdempotent | core/views.py:359-370 | revoking twice is the same as revoking once |
| Guards.FindStudent | core/views.py:334 | a found account is a student with that id; nothing is found exactly when no student has the id |
| Guards.ApproveStudent | core/views.py:333-343 | approval happens exactly for an existing student of the coordinator's department; it activates that user and verifies that profile and changes nothing else |
| Guards.ApprovedProfileReadsVerified | core/views.py:338-341 | an approved student is active and their profile string ends in " (Verified)" |
| Guards.RejectStudent | core/views.py:347-355 | rejection happens exactly for an existing student of the coordinator's department; it removes that account and, by cascade, exactly that student's feedback |
| Summarize.Matching | core/views.py:401-402 | a row is matched exactly when it is in the store, its id is requested and it belongs to the coordinator's department |
| Summarize.MatchingUnique | core/views.py:401-402 | filtering a store of distinct ids keeps the ids distinct, so the count compared with the request counts rows, not repetitions |
| Summarize.BatchCheckMeaning | core/views.py:402-405 | the count check passes exactly when no id is repeated and every id names a row of the coordinator's department |
| Summarize.ForeignIdRejectsBatch | core/views.py:402-405 | one id from another department rejects the whole request |
| Summarize.EntryHeader | core/views.py:410 | an entry's heading starts with the letter F |
| Summarize.EntryHeadersDistinct | core/views.py:410 | entries with different ids get different headings |
| Summarize.RatingLineShape | core/views.py:418-424 | every rating line names its question, and it reads "Not Rated" exactly when the rating is null |
| Summarize.EntryParts | core/views.py:409-428 | the comment appears, stripped and quoted, exactly when the text has content; a category with questions gets a heading and exactly five lines, one per rating column in order |
| Summarize.ContextNotBlank | core/views.py:407-434 | a non-empty batch renders non-blank context, so the "nothing to summarize" reply is unreachable |
| Summarize.SummarizeFeedback | core/views.py:389-466 | 503 iff no key; 400 iff the id list is missing or empty; 403 iff the batch check fails; otherwise the joined reply parts, the blocked-content notice for no parts, or 500 if the call raised |
| Analytics.DepartmentRows | core/views.py:481 | exactly the rows submitted to the department |
| Analytics.SentimentLabels | core/views.py:492-495 | the capitalised labels are "Negative", "Neutral" and "Positive" |
| Analytics.KeyOrder | core/views.py:484 | the stored sentiment keys sort NEGATIVE, NEUTRAL, POSITIVE |
| Analytics.PieSlicesCounts | core/views.py:484-495 | every slice carries a positive count equal to the number of rows with its sentiment |
| Analytics.PieSlicesCover | core/views.py:484-495 | a sentiment has a slice exactly when some row carries it |
| Analytics.PieSlicesOrdered | core/views.py:484 | the slices follow ascending order of the stored sentiment keys |
| Analytics.CountClassifiedAll | core/views.py:484-495 | the classified count reaches the number of rows exactly when every row carries a sentiment, so the pie leaves no row out only then |
| Analytics.PieTotal | core/views.py:484-495 | the slices add up to the number of classified rows, so only unclassified rows are left off |
| Analytics.PieChart | core/views.py:484-495 | the one-pass tally yields, slice by slice, the capitalised label and the count of each present sentiment |
| Analytics.PolarCategories | core/views.py:498-507 | the bar categories are strictly ascending and are exactly the categories having a positive or negative row |
| Analytics.Bars | core/views.py:498-522 | one bar per such category, labelled with its display name (or key), whose positive and negative values are that category's positive and negative counts, with a non-zero total |
| Analytics.BarGroups | core/views.py:502-505 | each bar's positive and negative counts add up to its group's size |
| Analytics.BarTotals | core/views.py:498-522 | the positive bars add up to all positive rows and the negative bars to all negative rows, so no row is lost or counted twice |
| Analytics.AnalyticsPage | core/views.py:472-529 | no charts (a redirect) exactly when the coordinator has no department; otherwise the pie and bar charts of that department's rows |

## Left out

- HTTP, templates, flash messages, sessions and redirect targets. Only the outcome each view reaches is modelled.
- The login, logout, sign-up, dashboard, department-list, manage-students and edit-profile views, `EditProfileForm`, and the widget styling in the form constructors. They hold no decision logic beyond what is modelled.
- The role decorators (`is_student`, `is_coordinator`, `is_admin`) and `login_required`. The modelled views assume the caller passed them. `Guards.ViewFeedback` checks the coordinator role itself, as its body does.
- The language-model client: file upload and deletion, model names, and prompt wording. Each call is an oracle reply given as input (`Gateway`, `SummaryReply`). The summariser is applied to the rendered context, not to the full prompt.
- JSON decoding of the summarisation request. The body's id list is `Option<seq<int>>`, with `None` for a missing or non-list value. Malformed JSON and non-integer elements are not modelled.
- Timestamps. The store is given in `-timestamp` order, and `Models.FeedbackStr` takes the formatted timestamp as a parameter.
- File storage for photos and audio. A file is its stored name.
- The feedback form's category field posts a category's primary key. The model names a category by its key instead, which is unique (core/models.py:72-74), and takes the stored categories as a list of keys.
- The optional text, audio and anonymity fields of the feedback form always clean in the model. Upload validation of the audio file (an empty or over-long file name, a broken upload) is not modelled. The messages for a missing required value and an invalid choice are Django's defaults.
- The admin site, URL routing and project settings (`kashmir_feedback_system`).
- Strings.Upper: maps ASCII letters plus U+0131 and U+017F. Those are the only code points whose upper case can turn a classifier reply into one of the three labels. Other Unicode case mappings are not modelled.
- Strings.Lower: maps only ASCII A–Z. `Forms.CleanEmail` therefore treats non-ASCII letters in an address as already lower-case.
- Analytics.PolarCategories: orders keys by code point. This assumes the database collation sorts the ASCII category keys that way.
- Summarize.SummarizeFeedback: a request's matched rows are rendered in store order. The modelled context therefore assumes the queryset keeps the model's default ordering.
- Guards.ApproveStudent: like the code, it does not check that the student is still pending. Approving an approved student is allowed and changes nothing further.
- Forms.Signup: field-level validation is not modelled. That covers email syntax, required fields, and whether the chosen department and year are among the choices.
- Ratings are unbounded integers. A stored rating outside 1..5 gets no label, as `.get` returns its default. This models the code's fallbacks rather than assuming the choices are enforced.

=== FILE: analytics.dfy ===
/**
 The coordinator's analytics page: the sentiment distribution of the
 department's feedback (pie chart) and the positive/negative counts per
 category (bar chart), as the grouped queries compute them.
 */
module Analytics {
  import opened Wrappers
  import opened Strings
  import opened Models

  /** `Feedback.objects.filter(department_at_submission=department)`, in store order. */
  function DepartmentRows(store: seq<Feedback>, department: nat): (r: seq<Feedback>)
    ensures forall f :: f in r <==> f in store && f.department == Some(department)
    ensures |r| <= |store|
  {
    if |store| == 0 then []
    else (if store[0].department == Some(department) then [store[0]] else []) + DepartmentRows(store[1..], department)
  }

  /**
   The number of rows classified as `s`. Its contract is only a bound; what
   the count means is stated by `CountWherePositive`, `ThreeWayPartition`,
   `PieSlicesCounts` and `PieTotal`.
   */
  function CountWhere(rows: seq<Feedback>, s: Sentiment): (n: nat)
    ensures n <= |rows|
  {
    if |rows| == 0 then 0
    else CountWhere(rows[..|rows| - 1], s) + (if rows[|rows| - 1].sentiment == Some(s) then 1 else 0)
  }

  /**
   The number of rows that carry any sentiment at all. Its contract is only a
   bound; `CountClassifiedAll` and `ThreeWayPartition` state what it counts.
   */
  function CountClassified(rows: seq<Feedback>): (n: nat)
    ensures n <= |rows|
  {
    if |rows| == 0 then 0
    else CountClassified(rows[..|rows| - 1]) + (if rows[|rows| - 1].sentiment.Some? then 1 else 0)
  }

  /** Every row is counted exactly when every row carries a sentiment. */
  lemma {:induction false} CountClassifiedAll(rows: seq<Feedback>)
    ensures CountClassified(rows) == |rows| <==> forall i :: 0 <= i < |rows| ==> rows[i].sentiment.Some?
  {
    if |rows| > 0 {
      var init := rows[..|rows| - 1];
      CountClassifiedAll(init);
      if forall i :: 0 <= i < |rows| ==> rows[i].sentiment.Some? {
        assert forall i :: 0 <= i < |init| ==> init[i] == rows[i];
      } else {
        var k :| 0 <= k < |rows| && rows[k].sentiment.None?;
        if k < |init| {
          assert init[k] == rows[k];
        }
      }
    }
  }

  /** A sentiment is counted at all exactly when some row carries it. */
  lemma {:induction false} CountWherePositive(rows: seq<Feedback>, s: Sentiment)
    ensures CountWhere(rows, s) > 0 <==> exists f :: f in rows && f.sentiment == Some(s)
  {
    if |rows| > 0 {
      var init := rows[..|rows| - 1];
      CountWherePositive(init, s);
      assert rows == init + [rows[|rows| - 1]];
      if exists f :: f in init && f.sentiment == Some(s) {
        var f :| f in init && f.sentiment == Some(s);
        assert f in rows;
      }
    }
  }

  /** Every classified row carries exactly one of the three sentiments. */
  lemma {:induction false} ThreeWayPartition(rows: seq<Feedback>)
    ensures CountWhere(rows, Negative) + CountWhere(rows, Neutral) + CountWhere(rows, Positive) == CountClassified(rows)
  {
    if |rows| > 0 {
      var init := rows[..|rows| - 1];
      ThreeWayPartition(init);
      assert CountClassified(rows) == CountClassified(init) + (if rows[|rows| - 1].sentiment.Some? then 1 else 0);
      assert CountWhere(rows, Negative) == CountWhere(init, Negative)
        + (if rows[|rows| - 1].sentiment == Some(Negative) then 1 else 0);
      assert CountWhere(rows, Neutral) == CountWhere(init, Neutral)
        + (if rows[|rows| - 1].sentiment == Some(Neutral) then 1 else 0);
      assert CountWhere(rows, Positive) == CountWhere(init, Positive)
        + (if rows[|rows| - 1].sentiment == Some(Positive) then 1 else 0);
      match rows[|rows| - 1].sentiment {
        case None =>
        case Some(Negative) =>
        case Some(Neutral) =>
        case Some(Positive) =>
      }
    }
  }

  // ---------------------------------------------------------------------------
  // Pie chart

  /** Python's `str.capitalize` on the stored keys: first letter upper-case, the rest lower-case. */
  function Capitalize(s: string): string {
    if |s| == 0 then "" else [UpperChar(s[0])] + Lower(s[1..])
  }

  /** The label the pie chart shows for a sentiment. */
  function SentimentLabel(s: Sentiment): string {
    Capitalize(SentimentKey(s))
  }

  /** Capitalizing an upper-case key keeps its first letter and lower-cases the rest. */
  lemma CapitalizeKey(key: string, tail: string)
    requires |key| > 0 && 'A' <= key[0] <= 'Z' && Lower(key[1..]) == tail
    ensures Capitalize(key) == [key[0]] + tail
  {
  }

  /** The three labels the chart can show. */
  lemma SentimentLabels()
    ensures SentimentLabel(Negative) == "Negative"
    ensures SentimentLabel(Neutral) == "Neutral"
    ensures SentimentLabel(Positive) == "Positive"
  {
    CapitalizeKey("NEGATIVE", "egative");
    CapitalizeKey("NEUTRAL", "eutral");
    CapitalizeKey("POSITIVE", "ositive");
  }

  /** The slice of one sentiment, present only when the group is non-empty (a grouped query has no empty groups). */
  function Slice(rows: seq<Feedback>, s: Sentiment): seq<(Sentiment, nat)> {
    if CountWhere(rows, s) > 0 then [(s, CountWhere(rows, s))] else []
  }

  /** The stored keys in ascending order: `NEGATIVE` < `NEUTRAL` < `POSITIVE`. */
  lemma KeyOrder()
    ensures Less(SentimentKey(Negative), SentimentKey(Neutral))
    ensures Less(SentimentKey(Neutral), SentimentKey(Positive))
    ensures Less(SentimentKey(Negative), SentimentKey(Positive))
  {
    assert SentimentKey(Negative) == "NE" + "GATIVE" && SentimentKey(Neutral) == "NE" + "UTRAL";
    LessCommonPrefix("NE", "GATIVE", "UTRAL");
  }

  /** The groups of the sentiment query ordered by stored key; the null group is not charted. */
  function PieSlices(rows: seq<Feedback>): seq<(Sentiment, nat)> {
    Slice(rows, Negative) + Slice(rows, Neutral) + Slice(rows, Positive)
  }

  /** Each slice carries a sentiment that some row has, with that sentiment's count. */
  lemma PieSlicesCounts(rows: seq<Feedback>)
    ensures var r := PieSlices(rows);
      forall k :: 0 <= k < |r| ==> r[k].1 > 0 && r[k].1 == CountWhere(rows, r[k].0)
  {
  }

  /** There is a slice for a sentiment exactly when some row carries it. */
  lemma PieSlicesCover(rows: seq<Feedback>)
    ensures var r := PieSlices(rows);
      forall s :: CountWhere(rows, s) > 0 <==> exists k :: 0 <= k < |r| && r[k].0 == s
  {
    var r := PieSlices(rows);
    forall s ensures CountWhere(rows, s) > 0 ==> exists k :: 0 <= k < |r| && r[k].0 == s {
      if CountWhere(rows, s) > 0 {
        var k := match s
          case Negative => 0
          case Neutral => |Slice(rows, Negative)|
          case Positive => |Slice(rows, Negative)| + |Slice(rows, Neutral)|;
        assert r[k].0 == s;
      }
    }
  }

  /** The slices come in ascending order of stored key. */
  lemma PieSlicesOrdered(rows: seq<Feedback>)
    ensures var r := PieSlices(rows);
      forall i, j :: 0 <= i < j < |r| ==> Less(SentimentKey(r[i].0), SentimentKey(r[j].0))
  {
    KeyOrder();
    var r := PieSlices(rows);
    forall i, j | 0 <= i < j < |r| ensures Less(SentimentKey(r[i].0), SentimentKey(r[j].0)) {
      SliceAt(rows, i);
      SliceAt(rows, j);
    }
  }

  /** Which sentiment the slice at position `k` belongs to. */
  lemma SliceAt(rows: seq<Feedback>, k: nat)
    requires k < |PieSlices(rows)|
    ensures var n, u := |Slice(rows, Negative)|, |Slice(rows, Neutral)|;
      n <= 1 && u <= 1
      && PieSlices(rows)[k].0 == if k < n then Negative else if k < n + u then Neutral else Positive
  {
  }

  function SliceTotal(slices: seq<(Sentiment, nat)>): nat {
    if |slices| == 0 then 0 else slices[0].1 + SliceTotal(slices[1..])
  }

  lemma {:induction false} SliceTotalAppend(a: seq<(Sentiment, nat)>, b: seq<(Sentiment, nat)>)
    ensures SliceTotal(a + b) == SliceTotal(a) + SliceTotal(b)
  {
    if |a| > 0 {
      assert (a + b)[0] == a[0] && (a + b)[1..] == a[1..] + b;
      SliceTotalAppend(a[1..], b);
    } else {
      assert a + b == b;
    }
  }

  /** The slices together count every classified row once: only unclassified rows are left off the chart. */
  lemma PieTotal(rows: seq<Feedback>)
    ensures SliceTotal(PieSlices(rows)) == CountClassified(rows)
  {
    var n, u, p := Slice(rows, Negative), Slice(rows, Neutral), Slice(rows, Positive);
    SliceTotalAppend(n, u);
    SliceTotalAppend(n + u, p);
    ThreeWayPartition(rows);
  }

  /** Builds the pie chart's labels and data in one pass over the department's rows. */
  method PieChart(rows: seq<Feedback>) returns (labels: seq<string>, data: seq<nat>)
    ensures |labels| == |data| == |PieSlices(rows)|
    ensures forall k :: 0 <= k < |data| ==>
      labels[k] == SentimentLabel(PieSlices(rows)[k].0) && data[k] == PieSlices(rows)[k].1
  {
    var negative, neutral, positive := 0, 0, 0;
    var i := 0;
    while i < |rows|
      invariant 0 <= i <= |rows|
      invariant negative == CountWhere(rows[..i], Negative)
      invariant neutral == CountWhere(rows[..i], Neutral)
      invariant positive == CountWhere(rows[..i], Positive)
    {
      assert rows[..i + 1][..i] == rows[..i];
      var s := rows[i].sentiment;
      if s == Some(Negative) {
        negative := negative + 1;
      } else if s == Some(Neutral) {
        neutral := neutral + 1;
      } else if s == Some(Positive) {
        positive := positive + 1;
      }
      i := i + 1;
    }
    assert rows[..i] == rows;
    var slices := (if negative > 0 then [(Negative, negative)] else [])
      + (if neutral > 0 then [(Neutral, neutral)] else [])
      + (if positive > 0 then [(Positive, positive)] else []);
    assert slices == PieSlices(rows);
    labels := seq(|slices|, k requires 0 <= k < |slices| => SentimentLabel(slices[k].0));
    data := seq(|slices|, k requires 0 <= k < |slices| => slices[k].1);
  }

  // ---------------------------------------------------------------------------
  // Bar chart

  /** Only positive and negative feedback is charted per category. */
  predicate Polar(f: Feedback) {
    f.sentiment == Some(Positive) || f.sentiment == Some(Negative)
  }

  predicate Ascending(keys: seq<string>) {
    forall i, j :: 0 <= i < j < |keys| ==> Less(keys[i], keys[j])
  }

  predicate Distinct(keys: seq<string>) {
    forall i, j :: 0 <= i < j < |keys| ==> keys[i] != keys[j]
  }

  lemma AscendingDistinct(keys: seq<string>)
    requires Ascending(keys)
    ensures Distinct(keys)
  {
    forall i, j | 0 <= i < j < |keys| ensures keys[i] != keys[j] {
      if keys[i] == keys[j] {
        LessIrreflexive(keys[i]);
      }
    }
  }

  /** Adds a key to an ascending key list, keeping it ascending and free of repeats. */
  function Insert(keys: seq<string>, key: string): (r: seq<string>)
    requires Ascending(keys)
    ensures Ascending(r)
    ensures forall x :: x in r <==> x in keys || x == key
    ensures |r| == if key in keys then |keys| else |keys| + 1
  {
    if |keys| == 0 then [key]
    else if keys[0] == key then keys
    else if Less(key, keys[0]) then
      var r := [key] + keys;
      forall j | 0 < j < |r| ensures Less(key, r[j]) {
        if j > 1 {
          LessTransitive(key, keys[0], keys[j - 1]);
        }
      }
      AscendingDistinct(keys);
      LessIrreflexive(key);
      forall m | 0 <= m < |keys| ensures keys[m] != key {
        assert r[m + 1] == keys[m];
      }
      r
    else
      LessTotal(key, keys[0]);
      var rest := Insert(keys[1..], key);
      var r := [keys[0]] + rest;
      forall j | 0 < j < |r| ensures Less(keys[0], r[j]) {
        assert r[j] in rest;
      }
      AscendingDistinct(keys);
      assert keys == [keys[0]] + keys[1..];
      assert key in keys <==> key in keys[1..];
      r
  }

  /** The category keys of the department's positive and negative rows, in ascending order (`order_by('category__name')`). */
  function PolarCategories(rows: seq<Feedback>): (keys: seq<string>)
    ensures Ascending(keys)
    ensures forall c :: c in keys <==> exists f :: f in rows && Polar(f) && f.category == c
  {
    if |rows| == 0 then []
    else
      var init := rows[..|rows| - 1];
      var last := rows[|rows| - 1];
      assert rows == init + [last];
      var keys := PolarCategories(init);
      if Polar(last) then Insert(keys, last.category) else keys
  }

  /**
   The number of rows of category `c` classified as `s`. Its contract is only
   a bound; `Bars`, `BarGroups` and `BarTotals` state what it counts.
   */
  function CountIn(rows: seq<Feedback>, c: string, s: Sentiment): (n: nat)
    ensures n <= CountWhere(rows, s)
  {
    if |rows| == 0 then 0
    else
      var last := rows[|rows| - 1];
      CountIn(rows[..|rows| - 1], c, s) + (if last.category == c && last.sentiment == Some(s) then 1 else 0)
  }

  lemma {:induction false} CountInPositive(rows: seq<Feedback>, c: string, s: Sentiment)
    ensures CountIn(rows, c, s) > 0 <==> exists f :: f in rows && f.category == c && f.sentiment == Some(s)
  {
    if |rows| > 0 {
      var init := rows[..|rows| - 1];
      CountInPositive(init, c, s);
      assert rows == init + [rows[|rows| - 1]];
      if exists f :: f in init && f.category == c && f.sentiment == Some(s) {
        var f :| f in init && f.category == c && f.sentiment == Some(s);
        assert f in rows;
      }
    }
  }

  /** The size of category `c`'s group in the bar-chart query: its positive and negative rows. */
  function GroupSize(rows: seq<Feedback>, c: string): nat {
    if |rows| == 0 then 0
    else
      var last := rows[|rows| - 1];
      GroupSize(rows[..|rows| - 1], c) + (if last.category == c && Polar(last) then 1 else 0)
  }

  /** Within a group, the positive and the negative count add up to the group's size. */
  lemma {:induction false} GroupSplit(rows: seq<Feedback>, c: string)
    ensures CountIn(rows, c, Positive) + CountIn(rows, c, Negative) == GroupSize(rows, c)
  {
    if |rows| > 0 {
      GroupSplit(rows[..|rows| - 1], c);
    }
  }

  /** One count per key, in key order. */
  function Counts(keys: seq<string>, rows: seq<Feedback>, s: Sentiment): (r: seq<nat>)
    ensures |r| == |keys|
    ensures forall i :: 0 <= i < |keys| ==> r[i] == CountIn(rows, keys[i], s)
  {
    if |keys| == 0 then [] else [CountIn(rows, keys[0], s)] + Counts(keys[1..], rows, s)
  }

  datatype BarChart = BarChart(labels: seq<string>, positive: seq<nat>, negative: seq<nat>)

  /**
   The bar chart: one bar per category that has positive or negative
   feedback, labelled with the category's display name (its key when it has
   none), with that category's positive and negative counts.
   */
  function Bars(rows: seq<Feedback>): (r: BarChart)
    ensures |r.labels| == |r.positive| == |r.negative| == |PolarCategories(rows)|
    ensures forall i :: 0 <= i < |r.labels| ==>
      && r.labels[i] == CategoryDisplay(PolarCategories(rows)[i])
      && r.positive[i] == CountIn(rows, PolarCategories(rows)[i], Positive)
      && r.negative[i] == CountIn(rows, PolarCategories(rows)[i], Negative)
      && r.positive[i] + r.negative[i] > 0
  {
    var keys := PolarCategories(rows);
    forall i | 0 <= i < |keys|
      ensures CountIn(rows, keys[i], Positive) + CountIn(rows, keys[i], Negative) > 0
    {
      assert keys[i] in keys;
      var f :| f in rows && Polar(f) && f.category == keys[i];
      CountInPositive(rows, keys[i], f.sentiment.value);
    }
    BarChart(seq(|keys|, i requires 0 <= i < |keys| => CategoryDisplay(keys[i])),
             Counts(keys, rows, Positive), Counts(keys, rows, Negative))
  }

  function Sum(xs: seq<nat>): nat {
    if |xs| == 0 then 0 else xs[0] + Sum(xs[1..])
  }

  /** How many times `c` occurs among `keys`. */
  function Occurrences(keys: seq<string>, c: string): nat {
    if |keys| == 0 then 0 else (if keys[0] == c then 1 else 0) + Occurrences(keys[1..], c)
  }

  lemma {:induction false} OccurrencesDistinct(keys: seq<string>, c: string)
    requires Distinct(keys)
    ensures Occurrences(keys, c) == if c in keys then 1 else 0
  {
    if |keys| > 0 {
      assert Distinct(keys[1..]) by {
        forall i, j | 0 <= i < j < |keys[1..]| ensures keys[1..][i] != keys[1..][j] {
          assert keys[1..][i] == keys[i + 1] && keys[1..][j] == keys[j + 1];
        }
      }
      OccurrencesDistinct(keys[1..], c);
      if keys[0] == c {
        assert c !in keys[1..] by {
          forall j | 0 <= j < |keys[1..]| ensures keys[1..][j] != c {
            assert keys[1..][j] == keys[j + 1];
          }
        }
      } else {
        assert c in keys <==> c in keys[1..];
      }
    }
  }

  lemma {:induction false} CountsOfNothing(keys: seq<string>, s: Sentiment)
    ensures Sum(Counts(keys, [], s)) == 0
  {
    if |keys| > 0 {
      CountsOfNothing(keys[1..], s);
    }
  }

  /** Adding one row to the query adds it to the bar of each key equal to its category. */
  lemma {:induction false} CountsStep(keys: seq<string>, rows: seq<Feedback>, s: Sentiment)
    requires |rows| > 0
    ensures var last := rows[|rows| - 1];
      Sum(Counts(keys, rows, s))
        == Sum(Counts(keys, rows[..|rows| - 1], s))
           + (if last.sentiment == Some(s) then Occurrences(keys, last.category) else 0)
  {
    if |keys| > 0 {
      CountsStep(keys[1..], rows, s);
    }
  }

  /** With distinct keys covering every row classified `s`, the bars count each such row once. */
  lemma {:induction false} CountsTotal(keys: seq<string>, rows: seq<Feedback>, s: Sentiment)
    requires Distinct(keys)
    requires forall f :: f in rows && f.sentiment == Some(s) ==> f.category in keys
    ensures Sum(Counts(keys, rows, s)) == CountWhere(rows, s)
  {
    if |rows| == 0 {
      CountsOfNothing(keys, s);
    } else {
      var init := rows[..|rows| - 1];
      var last := rows[|rows| - 1];
      assert forall f :: f in init ==> f in rows;
      CountsTotal(keys, init, s);
      CountsStep(keys, rows, s);
      OccurrencesDistinct(keys, last.category);
    }
  }

  /** Each bar's two counts add up to the size of its category's group. */
  lemma BarGroups(rows: seq<Feedback>)
    ensures forall i :: 0 <= i < |Bars(rows).labels| ==>
      Bars(rows).positive[i] + Bars(rows).negative[i] == GroupSize(rows, PolarCategories(rows)[i])
  {
    forall i | 0 <= i < |Bars(rows).labels|
      ensures Bars(rows).positive[i] + Bars(rows).negative[i] == GroupSize(rows, PolarCategories(rows)[i])
    {
      GroupSplit(rows, PolarCategories(rows)[i]);
    }
  }

  /**
   No positive or negative row is lost or counted twice: the positive bars add
   up to the department's positive feedback, the negative bars to its
   negative feedback.
   */
  lemma BarTotals(rows: seq<Feedback>)
    ensures Sum(Bars(rows).positive) == CountWhere(rows, Positive)
    ensures Sum(Bars(rows).negative) == CountWhere(rows, Negative)
  {
    var keys := PolarCategories(rows);
    AscendingDistinct(keys);
    CountsTotal(keys, rows, Positive);
    CountsTotal(keys, rows, Negative);
  }

  // ---------------------------------------------------------------------------
  // The page

  datatype Charts = Charts(pieLabels: seq<string>, pieData: seq<nat>, bars: BarChart)

  /**
   `analytics_view`: no charts (a redirect to the dashboard) for a coordinator
   without a department; otherwise both charts over that department's rows.
   */
  method AnalyticsPage(store: seq<Feedback>, department: Option<nat>) returns (r: Option<Charts>)
    ensures r.None? <==> department.None?
    ensures r.Some? ==>
      var rows := DepartmentRows(store, department.value);
      && |r.value.pieLabels| == |r.value.pieData| == |PieSlices(rows)|
      && (forall k :: 0 <= k < |r.value.pieData| ==>
            r.value.pieLabels[k] == SentimentLabel(PieSlices(rows)[k].0)
            && r.value.pieData[k] == PieSlices(rows)[k].1)
      && r.value.bars == Bars(rows)
  {
    if department.None? {
      return None;
    }
    var rows := DepartmentRows(store, department.value);
    var labels, data := PieChart(rows);
    return Some(Charts(labels, data, Bars(rows)));
  }
}

=== FILE: enrichment.dfy ===
/**
 The feedback-submission pipeline: validate, create the record with the
 owner's department as a snapshot, then enrich it best-effort with a
 transcript and a sentiment label. The generative-AI service appears only as
 the replies it gives (`Gateway`); nothing here can fail the submission once
 the form is valid.
 */
module Enrichment {
  import opened Wrappers
  import opened Strings
  import opened Models
  import opened Forms

  // ---------------------------------------------------------------------------
  // The per-category question table (the second, effective binding of
  // `HARDCODED_CATEGORY_QUESTIONS`).

  const QuestionTable: seq<(string, seq<string>)> := [
    ("TEACHING", ["Clarity of explanations?", "Instructor engagement?", "Course content relevance?",
      "Fairness of grading?", "Overall teaching effectiveness?"]),
    ("INFRASTRUCTURE", ["Classroom/lab conditions?", "IT resources (Wi-Fi, PCs)?", "Library resources/space?",
      "Sports facilities?", "Overall campus infrastructure?"]),
    ("TRANSPORT", ["Transport punctuality?", "Bus comfort & safety?", "Route accessibility?",
      "Transport staff behavior?", "Overall transport satisfaction?"]),
    ("EXTRACURRICULAR", ["Variety/quality of activities?", "Support for student clubs?",
      "Sports/cultural event opportunities?", "Communication about activities?",
      "Overall extracurricular satisfaction?"]),
    ("STAFF_BEHAVIOUR", ["Administrative staff professionalism?", "Support staff helpfulness?",
      "Faculty accessibility (non-academic)?", "Fairness in staff dealings?", "Overall experience with staff?"]),
    ("CANTEEN", ["Food quality/taste?", "Variety of food options?", "Canteen hygiene?",
      "Value for money?", "Overall canteen satisfaction?"]),
    ("LIBRARY", ["Book/journal availability?", "Library staff helpfulness?", "Study environment comfort?",
      "Digital resource access?", "Overall effectiveness of library services?"])
  ]

  /** The table has a row of five questions for each category key, in the same order. */
  lemma QuestionTableShape()
    ensures |QuestionTable| == |CategoryChoices|
    ensures forall i :: 0 <= i < |QuestionTable| ==>
      QuestionTable[i].0 == CategoryChoices[i].0 && |QuestionTable[i].1| == 5
  {
  }

  /** `HARDCODED_CATEGORY_QUESTIONS.get(category, [])`. */
  function Questions(category: string): (qs: seq<string>)
    ensures qs == [] || |qs| == 5
    ensures qs != [] <==> exists i :: 0 <= i < |CategoryChoices| && CategoryChoices[i].0 == category
  {
    QuestionTableShape();
    match Lookup(QuestionTable, category)
    case Some(qs) => qs
    case None => []
  }

  // ---------------------------------------------------------------------------
  // The service boundary

  /** What the transcription request produced: a reply text, or an exception with its message. */
  datatype TranscriberReply = Transcribed(text: string) | TranscriberRaised(error: string)

  /** What the classification request produced: a reply text, or an exception. */
  datatype ClassifierReply = Classified(text: string) | ClassifierRaised

  /**
   The service as seen by the pipeline: whether an API key is configured, and
   the reply it would give to a transcription request for an audio file and to
   a classification request for a text.
   */
  datatype Gateway = Gateway(
    keyConfigured: bool,
    transcribe: string -> TranscriberReply,
    classify: string -> ClassifierReply)

  const EmptyTranscriptPlaceholder := "[Transcription failed or audio was empty]"

  function TranscriptionErrorPlaceholder(error: string): (r: string)
    ensures |r| > 0 && r[0] == '['
  {
    var r := "[Audio transcription failed due to an error: " + error + "]";
    assert r[0] == '[' by {
      var prefix := "[Audio transcription failed due to an error: ";
      assert prefix == ['['] + prefix[1..];
    }
    r
  }

  /**
   `transcribe_audio_with_gemini`: `None` only without an API key; otherwise the
   stripped transcript, or a placeholder when the reply was empty or the call
   raised.
   */
  function Transcribe(keyConfigured: bool, reply: TranscriberReply): (r: Option<string>)
    ensures r.None? <==> !keyConfigured
    ensures keyConfigured && reply.Transcribed? && reply.text != "" ==> r == Some(Strip(reply.text))
    ensures keyConfigured && reply.Transcribed? && reply.text != "" ==> Strip(r.value) == r.value
    ensures keyConfigured && reply.Transcribed? && reply.text == "" ==> r == Some(EmptyTranscriptPlaceholder)
    ensures keyConfigured && reply.TranscriberRaised? ==> r == Some(TranscriptionErrorPlaceholder(reply.error))
  {
    if !keyConfigured then None
    else
      match reply
      case Transcribed(t) =>
        StripIdempotent(t);
        if t != "" then Some(Strip(t)) else Some(EmptyTranscriptPlaceholder)
      case TranscriberRaised(e) => Some(TranscriptionErrorPlaceholder(e))
  }

  /**
   When the transcriber's result is truthy, i.e. when it would overwrite the
   text: exactly when a key is configured and the reply is not a non-empty
   all-whitespace text. Both failure placeholders count as truthy.
   */
  lemma TranscriptTruthy(keyConfigured: bool, reply: TranscriberReply)
    ensures Truthy(Transcribe(keyConfigured, reply)) <==>
      keyConfigured && !(reply.Transcribed? && reply.text != "" && IsBlank(reply.text))
    ensures Truthy(Transcribe(keyConfigured, reply)) ==> HasContent(Transcribe(keyConfigured, reply))
  {
    var r := Transcribe(keyConfigured, reply);
    if keyConfigured {
      match reply
      case Transcribed(t) =>
        if t == "" {
          assert EmptyTranscriptPlaceholder[0] == '[';
        }
      case TranscriberRaised(e) =>
    }
  }

  /** Reduces a classifier reply to a sentiment: stripped, upper-cased, NEUTRAL when it names none. */
  function NormaliseReply(reply: string): (s: Sentiment)
  {
    ParseSentiment(Upper(Strip(reply))).GetOr(Neutral)
  }

  /**
   `analyze_sentiment_with_gemini`: no label without a key or for an empty
   text, or when the call raised; otherwise the reply normalised to one of the
   three labels.
   */
  function AnalyzeSentiment(keyConfigured: bool, text: string, reply: ClassifierReply): (r: Option<Sentiment>)
    ensures r.None? <==> !keyConfigured || text == "" || reply.ClassifierRaised?
    ensures r.Some? ==> forall s :: SentimentKey(s) == Upper(Strip(reply.text)) ==> r.value == s
    ensures r.Some? && (forall s :: SentimentKey(s) != Upper(Strip(reply.text))) ==> r.value == Neutral
  {
    if !keyConfigured || text == "" then None
    else
      match reply
      case ClassifierRaised => None
      case Classified(t) => Some(NormaliseReply(t))
  }

  /**
   The reply is read case-insensitively and without surrounding whitespace:
   whatever the padding, a reply spelling a label in any letter case yields
   that label.
   */
  lemma {:induction false} NormaliseReplyCaseInsensitive(pre: string, w: string, post: string, s: Sentiment)
    requires IsBlank(pre) && IsBlank(post)
    requires Upper(w) == SentimentKey(s)
    ensures NormaliseReply(pre + w + post) == s
  {
    assert UpperChar(w[0]) == SentimentKey(s)[0];
    assert UpperChar(w[|w| - 1]) == SentimentKey(s)[|w| - 1];
    StripPadded(pre, w, post);
  }

  /** Any reply whose trimmed, upper-cased text is not one of the labels counts as neutral. */
  lemma NormaliseReplyFallback(reply: string)
    requires forall s :: Upper(Strip(reply)) != SentimentKey(s)
    ensures NormaliseReply(reply) == Neutral
  {
  }

  // ---------------------------------------------------------------------------
  // Synthetic text from ratings

  function Sentence(question: string, ratingLabel: string): string {
    "For the question '" + question + "', the rating given was '" + ratingLabel + "'."
  }

  /** Slot `j` produces a sentence: it is rated and has a question. */
  predicate Eligible(qs: seq<string>, slots: seq<Option<int>>, j: int) {
    0 <= j < |slots| && slots[j].Some? && j < |qs|
  }

  /** The sentence slot `j` produces (the label defaults to "" for an unknown rating). */
  function SlotSentence(qs: seq<string>, slots: seq<Option<int>>, j: int): string
    requires Eligible(qs, slots, j)
  {
    Sentence(qs[j], RatingLabel(slots[j].value).GetOr(""))
  }

  /** The sentences of slots `i` onwards, in slot order. */
  function SyntheticParts(qs: seq<string>, slots: seq<Option<int>>, i: nat): seq<string>
    requires i <= |slots|
    decreases |slots| - i
  {
    if i == |slots| then []
    else (if Eligible(qs, slots, i) then [SlotSentence(qs, slots, i)] else []) + SyntheticParts(qs, slots, i + 1)
  }

  /** The number of eligible slots below `n`. */
  function EligibleBelow(qs: seq<string>, slots: seq<Option<int>>, n: nat): nat
    requires n <= |slots|
  {
    if n == 0 then 0 else EligibleBelow(qs, slots, n - 1) + (if Eligible(qs, slots, n - 1) then 1 else 0)
  }

  /**
   The parts are exactly the eligible slots' sentences, in slot order: there are
   as many parts as eligible slots from `i` on, and eligible slot `j` supplies
   the part at its rank among them.
   */
  lemma {:induction false} SyntheticPartsSpec(qs: seq<string>, slots: seq<Option<int>>, i: nat)
    requires i <= |slots|
    ensures |SyntheticParts(qs, slots, i)| == EligibleBelow(qs, slots, |slots|) - EligibleBelow(qs, slots, i)
    ensures forall j :: i <= j < |slots| && Eligible(qs, slots, j) ==>
      EligibleBelow(qs, slots, i) <= EligibleBelow(qs, slots, j) < EligibleBelow(qs, slots, |slots|) &&
      SyntheticParts(qs, slots, i)[EligibleBelow(qs, slots, j) - EligibleBelow(qs, slots, i)] == SlotSentence(qs, slots, j)
    decreases |slots| - i
  {
    SyntheticPartsLength(qs, slots, i);
    if i < |slots| {
      SyntheticPartsSpec(qs, slots, i + 1);
      EligibleBelowMonotone(qs, slots, i + 1);
      var parts := SyntheticParts(qs, slots, i);
      var rest := SyntheticParts(qs, slots, i + 1);
      var head := if Eligible(qs, slots, i) then [SlotSentence(qs, slots, i)] else [];
      var below := EligibleBelow(qs, slots, i);
      var belowNext := EligibleBelow(qs, slots, i + 1);
      var total := EligibleBelow(qs, slots, |slots|);
      assert parts == head + rest;
      assert belowNext == below + |head|;
      forall j | i <= j < |slots| && Eligible(qs, slots, j)
        ensures below <= EligibleBelow(qs, slots, j) < total
        ensures parts[EligibleBelow(qs, slots, j) - below] == SlotSentence(qs, slots, j)
      {
        if j == i {
          assert belowNext <= total;
          assert parts[0] == head[0];
        } else {
          assert i + 1 <= j;
          var k := EligibleBelow(qs, slots, j) - belowNext;
          assert 0 <= k < |rest|;
          assert rest[k] == SlotSentence(qs, slots, j);
          assert parts[EligibleBelow(qs, slots, j) - below] == rest[k];
        }
      }
    }
  }

  /** There are as many parts from slot `i` on as eligible slots from `i` on. */
  lemma {:induction false} SyntheticPartsLength(qs: seq<string>, slots: seq<Option<int>>, i: nat)
    requires i <= |slots|
    ensures |SyntheticParts(qs, slots, i)| == EligibleBelow(qs, slots, |slots|) - EligibleBelow(qs, slots, i)
    decreases |slots| - i
  {
    if i < |slots| {
      SyntheticPartsLength(qs, slots, i + 1);
    }
  }

  lemma {:induction false} EligibleBelowMonotone(qs: seq<string>, slots: seq<Option<int>>, i: nat)
    requires i <= |slots|
    ensures forall j :: i <= j <= |slots| ==> EligibleBelow(qs, slots, i) <= EligibleBelow(qs, slots, j)
    decreases |slots| - i
  {
    if i < |slots| {
      EligibleBelowMonotone(qs, slots, i + 1);
    }
  }

  /** `" ".join(synthetic_text_parts)` for a category and the five rating columns. */
  function SyntheticText(category: string, ratings: Ratings): string {
    Join(" ", SyntheticParts(Questions(category), ratings.Slots(), 0))
  }

  /** An eligible slot exists below `n` exactly when the count below `n` is positive. */
  lemma {:induction false} EligibleBelowPositive(qs: seq<string>, slots: seq<Option<int>>, n: nat)
    requires n <= |slots|
    ensures EligibleBelow(qs, slots, n) > 0 <==> exists j :: 0 <= j < n && Eligible(qs, slots, j)
  {
    if n > 0 {
      EligibleBelowPositive(qs, slots, n - 1);
    }
  }

  /** No parts from slot `i` on exactly when no slot from `i` on is eligible. */
  lemma {:induction false} SyntheticPartsEmpty(qs: seq<string>, slots: seq<Option<int>>, i: nat)
    requires i <= |slots|
    ensures SyntheticParts(qs, slots, i) == [] <==> forall j :: i <= j < |slots| ==> !Eligible(qs, slots, j)
    decreases |slots| - i
  {
    if i < |slots| {
      SyntheticPartsEmpty(qs, slots, i + 1);
    }
  }

  lemma SentenceStartsWithFor(question: string, ratingLabel: string)
    ensures |Sentence(question, ratingLabel)| >= 3 && Sentence(question, ratingLabel)[..3] == "For"
  {
    var prefix := "For the question '";
    assert Sentence(question, ratingLabel)[..3] == prefix[..3];
  }

  /** Every part is some eligible slot's sentence, hence starts with "For". */
  lemma {:induction false} PartsAreSentences(qs: seq<string>, slots: seq<Option<int>>, i: nat, k: nat)
    requires i <= |slots| && k < |SyntheticParts(qs, slots, i)|
    ensures |SyntheticParts(qs, slots, i)[k]| >= 3 && SyntheticParts(qs, slots, i)[k][..3] == "For"
    decreases |slots| - i
  {
    if Eligible(qs, slots, i) && k == 0 {
      SentenceStartsWithFor(qs[i], RatingLabel(slots[i].value).GetOr(""));
    } else {
      PartsAreSentences(qs, slots, i + 1, if Eligible(qs, slots, i) then k - 1 else k);
    }
  }

  /**
   The synthetic text is empty exactly when no slot is eligible; in particular
   an unknown category (no questions) yields empty text, and for a known
   category it is empty exactly when no rating was given.
   */
  lemma SyntheticTextEmpty(category: string, ratings: Ratings)
    ensures SyntheticText(category, ratings) == "" <==>
      forall j :: 0 <= j < 5 ==> !Eligible(Questions(category), ratings.Slots(), j)
    ensures Questions(category) == [] ==> SyntheticText(category, ratings) == ""
    ensures Questions(category) != [] ==> (SyntheticText(category, ratings) == "" <==> !AnyRated(ratings))
  {
    var qs := Questions(category);
    var slots := ratings.Slots();
    var parts := SyntheticParts(qs, slots, 0);
    SyntheticPartsEmpty(qs, slots, 0);
    if qs != [] {
      assert forall j :: 0 <= j < 5 ==> (Eligible(qs, slots, j) <==> slots[j].Some?);
    }
    forall k | 0 <= k < |parts| ensures parts[k] != "" {
      PartsAreSentences(qs, slots, 0, k);
    }
    JoinEmpty(" ", parts);
  }

  /**
   A non-empty synthetic text starts with "For", so it is never blank:
   whenever it is used for analysis, it is analysed.
   */
  lemma SyntheticTextNotBlank(category: string, ratings: Ratings)
    requires SyntheticText(category, ratings) != ""
    ensures !IsBlank(SyntheticText(category, ratings))
  {
    var qs := Questions(category);
    var slots := ratings.Slots();
    var parts := SyntheticParts(qs, slots, 0);
    assert parts != [];
    PartsAreSentences(qs, slots, 0, 0);
    assert parts[0][0] == parts[0][..3][0];
    JoinNotBlank(" ", parts);
  }

  /** The first two teaching questions, read through the table lookup. */
  lemma TeachingQuestions()
    ensures |Questions("TEACHING")| == 5
    ensures Questions("TEACHING")[0] == "Clarity of explanations?"
    ensures Questions("TEACHING")[1] == "Instructor engagement?"
  {
    QuestionTableShape();
    CategoryKeysDistinct();
    LookupDistinct(QuestionTable, 0);
  }

  /**
   A teaching submission rated 5 and 4 on the first two questions gives
   exactly the two corresponding sentences.
   */
  lemma SyntheticTextTeachingExample()
    ensures SyntheticText("TEACHING", Columns(Some(5), Some(4), None, None, None)) ==
      Sentence("Clarity of explanations?", "Excellent") + " " + Sentence("Instructor engagement?", "Good")
  {
    var qs := Questions("TEACHING");
    TeachingQuestions();
    var slots := Columns(Some(5), Some(4), None, None, None).Slots();
    assert slots == [Some(5), Some(4), None, None, None];
    assert SyntheticParts(qs, slots, 5) == [];
    assert SyntheticParts(qs, slots, 4) == [];
    assert SyntheticParts(qs, slots, 3) == [];
    assert SyntheticParts(qs, slots, 2) == [];
    var s0 := Sentence("Clarity of explanations?", "Excellent");
    var s1 := Sentence("Instructor engagement?", "Good");
    assert SyntheticParts(qs, slots, 1) == [s1];
    assert SyntheticParts(qs, slots, 0) == [s0, s1];
    assert Join(" ", [s0, s1]) == s0 + " " + s1;
    assert SyntheticText("TEACHING", Columns(Some(5), Some(4), None, None, None)) == s0 + " " + s1;
  }

  // ---------------------------------------------------------------------------
  // The pipeline

  /** The analysis text: the (possibly transcribed) text, or the synthetic text when that is blank and a rating exists. */
  function AnalysisText(text: Option<string>, category: string, ratings: Ratings): Option<string> {
    if !HasContent(text) && AnyRated(ratings) then Some(SyntheticText(category, ratings)) else text
  }

  /**
   The analysis text carries content exactly when the text does, or when a
   rating was given for a category that has questions.
   */
  lemma AnalysisTextContent(text: Option<string>, category: string, ratings: Ratings)
    ensures HasContent(AnalysisText(text, category, ratings)) <==>
      HasContent(text) || (AnyRated(ratings) && Questions(category) != [])
    ensures HasContent(text) ==> AnalysisText(text, category, ratings) == text
  {
    SyntheticTextEmpty(category, ratings);
    if !HasContent(text) && AnyRated(ratings) && Questions(category) != [] {
      SyntheticTextNotBlank(category, ratings);
    }
  }

  /** The transcription step applies: audio input with an audio file attached. */
  predicate TranscriptionApplies(f: Feedback) {
    f.inputMethod == Audio && Truthy(f.audio)
  }

  /** The text after the transcription step (a truthy transcript replaces it). */
  function TranscribedText(f: Feedback, gw: Gateway): Option<string> {
    if TranscriptionApplies(f) then
      var t := Transcribe(gw.keyConfigured, gw.transcribe(f.audio.value));
      if Truthy(t) then t else f.text
    else f.text
  }

  /** The sentiment the pipeline would assign, if any. */
  function SentimentFor(analysis: Option<string>, gw: Gateway): Option<Sentiment> {
    if HasContent(analysis) then
      AnalyzeSentiment(gw.keyConfigured, analysis.value, gw.classify(analysis.value))
    else None
  }

  /**
   The enrichment of a freshly created record (transcription, then the
   analysis text, then classification). Only the text and the sentiment can
   change; the text only to a truthy transcript of an attached audio file in
   audio mode; the sentiment only to a label the classifier produced for a
   non-blank analysis text.
   */
  function Enrich(f: Feedback, gw: Gateway): (r: Feedback)
    ensures r == f.(text := r.text, sentiment := r.sentiment)
    ensures r.text != f.text ==>
      TranscriptionApplies(f) && gw.keyConfigured && HasContent(r.text)
      && r.text == Transcribe(gw.keyConfigured, gw.transcribe(f.audio.value))
    ensures !TranscriptionApplies(f) ==> r.text == f.text
    ensures TranscriptionApplies(f) && Truthy(Transcribe(gw.keyConfigured, gw.transcribe(f.audio.value))) ==>
      r.text == Transcribe(gw.keyConfigured, gw.transcribe(f.audio.value))
    ensures TranscriptionApplies(f) && !Truthy(Transcribe(gw.keyConfigured, gw.transcribe(f.audio.value))) ==>
      r.text == f.text
    ensures var a := AnalysisText(r.text, f.category, f.ratings);
      HasContent(a) && gw.keyConfigured && gw.classify(a.value).Classified? ==>
      r.sentiment == Some(NormaliseReply(gw.classify(a.value).text))
    ensures r.sentiment != f.sentiment ==>
      var a := AnalysisText(r.text, f.category, f.ratings);
      HasContent(a) && gw.keyConfigured && gw.classify(a.value).Classified?
      && r.sentiment == Some(NormaliseReply(gw.classify(a.value).text))
  {
    var text := TranscribedText(f, gw);
    assert text != f.text ==> HasContent(text) by {
      if TranscriptionApplies(f) {
        TranscriptTruthy(gw.keyConfigured, gw.transcribe(f.audio.value));
      }
    }
    var f1 := f.(text := text);
    var result := SentimentFor(AnalysisText(text, f.category, f.ratings), gw);
    if result.Some? then f1.(sentiment := result) else f1
  }

  /**
   Transcription failures are not silent: in audio mode with a file and a key,
   a raised error or an empty reply replaces the text with its placeholder.
   */
  lemma FailurePlaceholderOverwrites(f: Feedback, gw: Gateway)
    requires TranscriptionApplies(f) && gw.keyConfigured
    requires gw.transcribe(f.audio.value).TranscriberRaised? || gw.transcribe(f.audio.value) == Transcribed("")
    ensures Enrich(f, gw).text == Transcribe(gw.keyConfigured, gw.transcribe(f.audio.value))
    ensures Enrich(f, gw).text.value[0] == '['
  {
    TranscriptTruthy(gw.keyConfigured, gw.transcribe(f.audio.value));
    assert EmptyTranscriptPlaceholder[0] == '[';
  }

  /** Without an API key nothing is enriched at all. */
  lemma NoKeyNoEnrichment(f: Feedback, gw: Gateway)
    requires !gw.keyConfigured
    ensures Enrich(f, gw) == f
  {
  }

  /**
   A rating-only submission is classified on its synthetic text: with a blank
   text, no transcription, a known category and some rating, the stored
   sentiment is the classifier's normalised reply to the synthetic text.
   */
  lemma RatingOnlyClassifiedOnSyntheticText(f: Feedback, gw: Gateway)
    requires !TranscriptionApplies(f) && !HasContent(f.text)
    requires AnyRated(f.ratings) && Questions(f.category) != [] && gw.keyConfigured
    requires gw.classify(SyntheticText(f.category, f.ratings)).Classified?
    ensures Enrich(f, gw).sentiment ==
      Some(NormaliseReply(gw.classify(SyntheticText(f.category, f.ratings)).text))
  {
    SyntheticTextEmpty(f.category, f.ratings);
    SyntheticTextNotBlank(f.category, f.ratings);
  }

  // ---------------------------------------------------------------------------
  // Submission


  datatype SubmitOutcome =
    | ProfileIncomplete
    | FormInvalid(errors: seq<FormError>)
    | Submitted(feedback: Feedback)

  /** The record `form.save(commit=False)` builds, owned by the submitter, with their department as a snapshot. */
  function CreateFeedback(d: FeedbackInput, category: string, inputMethod: InputMethod, id: nat, student: nat, department: nat): Feedback {
    Feedback(id, student, category, Some(department), d.ratings, inputMethod, Some(d.text), d.audio,
             d.isAnonymous, DefaultAnonymityRevoked, None)
  }

  /** A stored feedback has some content: non-blank text, an audio file, or a rating. */
  predicate HasSomeContent(f: Feedback) {
    HasContent(f.text) || Truthy(f.audio) || AnyRated(f.ratings)
  }

  /**
   `give_feedback_view` on a POST, given the stored category keys: a submitter
   without a department is turned away, an invalid form creates nothing and
   reports its errors, and a valid one is created and enriched. The stored
   record belongs to the submitter, carries their department and the posted
   fields, is not revoked, and satisfies the content invariant.
   */
  function SubmitFeedback(submitter: Option<Profile>, student: nat, p: FeedbackPost, categories: seq<string>,
                          id: nat, gw: Gateway): (r: SubmitOutcome)
    ensures r.ProfileIncomplete? <==> submitter.None? || submitter.value.department.None?
    ensures r.Submitted? <==>
      && submitter.Some? && submitter.value.department.Some?
      && FieldsValid(p, categories) && Acceptable(CleanedData(p, categories))
    ensures r.FormInvalid? ==> r.errors == FormErrors(p, categories) && r.errors != []
    ensures r.Submitted? ==>
      var d := CleanedData(p, categories);
      r.feedback == Enrich(CreateFeedback(d, d.category.value, d.inputMethod.value, id, student,
                                          submitter.value.department.value), gw)
    ensures r.Submitted? ==>
      var f := r.feedback;
      && f.id == id && f.student == student
      && f.department == submitter.value.department
      && p.category == Some(f.category) && p.inputMethod == Some(InputMethodKey(f.inputMethod))
      && f.ratings == CleanRatings(p.ratings) && InRange(f.ratings)
      && f.audio == p.audio && f.isAnonymous == p.isAnonymous
      && (!TranscriptionApplies(f) ==> f.text == Some(Strip(p.text)))
      && !f.anonymityRevoked
      && HasSomeContent(f)
  {
    if submitter.None? || submitter.value.department.None? then ProfileIncomplete
    else if FormErrors(p, categories) != [] then FormInvalid(FormErrors(p, categories))
    else
      var d := CleanedData(p, categories);
      var created := CreateFeedback(d, d.category.value, d.inputMethod.value, id, student, submitter.value.department.value);
      var f := Enrich(created, gw);
      assert HasSomeContent(f) by {
        if f.text != created.text {
          assert HasContent(f.text);
        }
      }
      Submitted(f)
  }

  /**
   A text-mode post with a known category, a blank comment and every rating
   either left out or one of the choices, at least one of them given, is
   accepted: the ratings alone satisfy the form, and they are stored.
   */
  lemma RatingOnlyTextPostSubmitted(submitter: Option<Profile>, student: nat, p: FeedbackPost,
                                    categories: seq<string>, id: nat, gw: Gateway)
    requires submitter.Some? && submitter.value.department.Some?
    requires p.category.Some? && p.category.value != "" && p.category.value in categories
    requires p.inputMethod == Some(InputMethodKey(Text)) && IsBlank(p.text)
    requires forall i :: 0 <= i < 5 ==> p.ratings.Slots()[i] == None || IsRatingChoice(p.ratings.Slots()[i])
    requires exists i :: 0 <= i < 5 && IsRatingChoice(p.ratings.Slots()[i])
    ensures SubmitFeedback(submitter, student, p, categories, id, gw).Submitted?
    ensures AnyRated(SubmitFeedback(submitter, student, p, categories, id, gw).feedback.ratings)
  {
    InputMethodKeys();
    forall i | 0 <= i < 5
      ensures CleanRating(p.ratings.Slots()[i]).RatingValid?
    {
      if p.ratings.Slots()[i] != None {
        var k :| 1 <= k <= 5 && p.ratings.Slots()[i] == Some(IntToString(k));
        RatingChoiceRoundTrip(k);
      }
    }
    assert FieldsValid(p, categories);
    var d := CleanedData(p, categories);
    assert d.inputMethod == Some(Text);
    assert AnyRated(d.ratings);
  }
}

=== FILE: forms.dfy ===
/**
 The validation and save logic of the sign-up and feedback forms: what a
 submission must contain to be accepted, where each error is attached, and
 which user and profile a successful sign-up creates.
 */
module Forms {
  import opened Wrappers
  import opened Strings
  import opened Models

  // ---------------------------------------------------------------------------
  // Feedback form

  datatype Field = CategoryField | InputMethodField | TextFeedbackField | AudioFeedbackField | RatingField(n: nat)

  /** An error attached to one field, or to the form as a whole (`add_error(None, ...)`). */
  datatype FormError = FieldError(field: Field, message: string) | NonFieldError(message: string)

  const TextModeMessage := "Please provide detailed feedback or answer rating questions when selecting Text Input."
  const AudioModeMessage := "Please upload/record audio or answer rating questions when selecting Audio Recording."
  const NothingGivenMessage :=
    "Please provide at least one form of feedback: either text, an audio recording, or at least one rating."

  /**
   The feedback form's `cleaned_data` as `clean()` reads it. `category` and
   `inputMethod` are `None` when that field itself failed to validate, so its
   key is missing from `cleaned_data`; a rating that failed is likewise absent,
   which `clean()` reads as `None`.
   */
  datatype FeedbackInput = FeedbackInput(
    category: Option<string>,
    inputMethod: Option<InputMethod>,
    text: string,
    audio: Option<string>,
    ratings: Ratings,
    isAnonymous: bool)

  predicate HasText(d: FeedbackInput) {
    !IsBlank(d.text)
  }

  predicate HasAudio(d: FeedbackInput) {
    Truthy(d.audio)
  }

  /**
   The acceptance rule: the chosen input method must be backed by its own
   medium or by a rating, and something (text, audio or a rating) must be given.
   */
  predicate Acceptable(d: FeedbackInput) {
    && (d.inputMethod == Some(Text) ==> HasText(d) || AnyRated(d.ratings))
    && (d.inputMethod == Some(Audio) ==> HasAudio(d) || AnyRated(d.ratings))
    && (HasText(d) || HasAudio(d) || AnyRated(d.ratings))
  }

  /**
   What `clean()` leaves behind: the data it read, the fields whose values
   `add_error(field, ...)` deleted from `cleaned_data`, and the errors.
   */
  datatype Cleaned = Cleaned(data: FeedbackInput, removed: set<Field>, errors: seq<FormError>)

  /** `GiveFeedbackForm.clean`. */
  function Clean(d: FeedbackInput): (r: Cleaned)
    ensures r.data == d
    ensures r.errors == [] <==> Acceptable(d)
    ensures (exists m :: FieldError(TextFeedbackField, m) in r.errors)
      <==> d.inputMethod == Some(Text) && !HasText(d) && !AnyRated(d.ratings)
    ensures (exists m :: FieldError(AudioFeedbackField, m) in r.errors)
      <==> d.inputMethod == Some(Audio) && !HasAudio(d) && !AnyRated(d.ratings)
    ensures (exists m :: NonFieldError(m) in r.errors)
      <==> !HasText(d) && !HasAudio(d) && !AnyRated(d.ratings)
    ensures forall fld :: fld in r.removed <==> exists m :: FieldError(fld, m) in r.errors
    ensures |r.errors| <= 2
  {
    var nothing := !HasText(d) && !HasAudio(d) && !AnyRated(d.ratings);
    var modeErrors :=
      if d.inputMethod == Some(Text) && !HasText(d) && !AnyRated(d.ratings) then
        [FieldError(TextFeedbackField, TextModeMessage)]
      else if d.inputMethod == Some(Audio) && !HasAudio(d) && !AnyRated(d.ratings) then
        [FieldError(AudioFeedbackField, AudioModeMessage)]
      else [];
    var removed := set e | e in modeErrors :: e.field;
    var emptyErrors := if nothing then [NonFieldError(NothingGivenMessage)] else [];
    Cleaned(d, removed, modeErrors + emptyErrors)
  }

  /**
   Text mode with nothing but an audio file is rejected, with exactly one error
   and that one on the text field: the audio does not stand in for the text.
   */
  lemma TextModeAudioOnlyRejected(d: FeedbackInput)
    requires d.inputMethod == Some(Text) && !HasText(d) && HasAudio(d) && !AnyRated(d.ratings)
    ensures Clean(d).errors == [FieldError(TextFeedbackField, TextModeMessage)]
  {
  }

  /** A submission with nothing at all under a chosen method carries two errors. */
  lemma EmptySubmissionTwoErrors(d: FeedbackInput)
    requires d.inputMethod.Some? && !HasText(d) && !HasAudio(d) && !AnyRated(d.ratings)
    ensures |Clean(d).errors| == 2
    ensures Clean(d).errors[1] == NonFieldError(NothingGivenMessage)
  {
    if d.inputMethod == Some(Text) {
      assert Clean(d).errors == [FieldError(TextFeedbackField, TextModeMessage), NonFieldError(NothingGivenMessage)];
    } else {
      assert d.inputMethod.value != Text;
      assert d.inputMethod.value.Audio?;
      assert Clean(d).errors == [FieldError(AudioFeedbackField, AudioModeMessage), NonFieldError(NothingGivenMessage)];
    }
  }

  /** The outcome of one rating field (`TypedChoiceField(coerce=int, empty_value=None)`). */
  datatype RatingCleaned = RatingValid(value: Option<int>) | RatingInvalid(raw: string)

  /**
   Cleans one submitted rating. A missing or empty value is no rating; one of
   the choice keys `"1"`..`"5"` becomes that number; anything else is an
   invalid choice.
   */
  function CleanRating(raw: Option<string>): (r: RatingCleaned)
    ensures r.RatingValid? && r.value.Some? ==> 1 <= r.value.value <= 5 && raw == Some(IntToString(r.value.value))
    ensures r.RatingValid? && r.value.None? <==> raw == None || raw == Some("")
    ensures r.RatingInvalid? <==>
      raw.Some? && raw.value != "" && !(exists v :: 1 <= v <= 5 && raw.value == IntToString(v))
  {
    match raw
    case None => RatingValid(None)
    case Some(s) =>
      if s == "" then RatingValid(None)
      else if s == IntToString(1) then RatingValid(Some(1))
      else if s == IntToString(2) then RatingValid(Some(2))
      else if s == IntToString(3) then RatingValid(Some(3))
      else if s == IntToString(4) then RatingValid(Some(4))
      else if s == IntToString(5) then RatingValid(Some(5))
      else RatingInvalid(s)
  }

  /** Every rating choice the form offers is accepted back as that same number. */
  /** The posted value is the key of one of `RATING_CHOICES`. */
  predicate IsRatingChoice(raw: Option<string>) {
    exists k :: 1 <= k <= 5 && raw == Some(IntToString(k))
  }

  lemma RatingChoiceRoundTrip(v: int)
    requires 1 <= v <= 5
    ensures CleanRating(Some(IntToString(v))) == RatingValid(Some(v))
  {
  }

  // ---------------------------------------------------------------------------
  // Field-level cleaning of the feedback form

  /** The outcome of cleaning one field: its value, or the error it raises. */
  datatype FieldResult<T> = Valid(value: T) | Invalid(message: string)

  /** Django's default messages for a missing required value and for a value outside the choices. */
  const RequiredMessage := "This field is required."
  const ChoicePrefix := "Select a valid choice. "
  const InvalidModelChoiceMessage := ChoicePrefix + "That choice is not one of the available choices."

  function InvalidChoiceMessage(value: string): (m: string)
    ensures m != RequiredMessage
  {
    var m := ChoicePrefix + value + " is not one of the available choices.";
    assert m[0] == ChoicePrefix[0] != RequiredMessage[0];
    m
  }

  /** The five rating fields as posted (`None` when a field is absent). */
  type RawRatings = Columns<Option<string>>

  /** The feedback form as posted, before any field is cleaned. */
  datatype FeedbackPost = FeedbackPost(
    category: Option<string>,
    inputMethod: Option<string>,
    text: string,
    audio: Option<string>,
    ratings: RawRatings,
    isAnonymous: bool)

  /**
   The `category` field (`ModelChoiceField` over the stored categories, named
   by their keys): an empty value is a missing required value, and any other
   value must name an existing category.
   */
  function CleanCategory(raw: Option<string>, categories: seq<string>): (r: FieldResult<string>)
    ensures r.Valid? <==> raw.Some? && raw.value != "" && raw.value in categories
    ensures r.Valid? ==> r.value == raw.value
    ensures r.Invalid? ==> (r.message == RequiredMessage <==> raw == None || raw == Some(""))
  {
    assert InvalidModelChoiceMessage[0] == ChoicePrefix[0] != RequiredMessage[0];
    match raw
    case None => Invalid(RequiredMessage)
    case Some(c) =>
      if c == "" then Invalid(RequiredMessage)
      else if c in categories then Valid(c)
      else Invalid(InvalidModelChoiceMessage)
  }

  /**
   The `input_method` field (a required `ChoiceField` over
   `INPUT_METHOD_CHOICES`): valid exactly for a stored key, which it maps back
   to its method.
   */
  function CleanInputMethod(raw: Option<string>): (r: FieldResult<InputMethod>)
    ensures r.Valid? <==> raw.Some? && Lookup(InputMethodChoices, raw.value).Some?
    ensures r.Valid? ==> InputMethodKey(r.value) == raw.value
    ensures r.Invalid? ==> (r.message == RequiredMessage <==> raw == None || raw == Some(""))
  {
    InputMethodKeys();
    match raw
    case None => Invalid(RequiredMessage)
    case Some(s) =>
      if s == "" then Invalid(RequiredMessage)
      else if s == InputMethodKey(Text) then Valid(Text)
      else if s == InputMethodKey(Audio) then Valid(Audio)
      else Invalid(InvalidChoiceMessage(s))
  }

  /**
   The value a rating field leaves for `clean()`: its cleaned number, or
   `None` when it was left empty or failed to clean (a failed field is absent
   from `cleaned_data`).
   */
  function RatingValue(raw: Option<string>): (v: Option<int>)
    ensures v.Some? ==> 1 <= v.value <= 5 && raw == Some(IntToString(v.value))
    ensures v.Some? <==> IsRatingChoice(raw)
    ensures forall k :: 1 <= k <= 5 && raw == Some(IntToString(k)) ==> v == Some(k)
  {
    var c := CleanRating(raw);
    if c.RatingValid? then c.value else None
  }

  /** The ratings `clean()` sees: each field's cleaned value, with failed fields absent. */
  function CleanRatings(raw: RawRatings): (r: Ratings)
    ensures forall i :: 0 <= i < 5 ==> r.Slots()[i] == RatingValue(raw.Slots()[i])
    ensures InRange(r)
    ensures raw == Columns(None, None, None, None, None) ==> r == NoRatings
    ensures AnyRated(r) <==> exists i :: 0 <= i < 5 && IsRatingChoice(raw.Slots()[i])
  {
    Columns(RatingValue(raw.r1), RatingValue(raw.r2), RatingValue(raw.r3),
            RatingValue(raw.r4), RatingValue(raw.r5))
  }

  /** The error of a field that failed to clean, if any. */
  function ErrorsOf<T>(field: Field, r: FieldResult<T>): (errors: seq<FormError>)
    ensures errors == [] <==> r.Valid?
    ensures forall e :: e in errors ==> e.FieldError? && e.field == field
  {
    if r.Invalid? then [FieldError(field, r.message)] else []
  }

  /** The error of rating field `n` (1-based), if its value is not a choice. */
  function RatingErrorsOf(n: nat, raw: Option<string>): seq<FormError> {
    match CleanRating(raw)
    case RatingInvalid(v) => [FieldError(RatingField(n), InvalidChoiceMessage(v))]
    case RatingValid(_) => []
  }

  /** The errors of the rating fields numbered `first`, `first + 1`, ... holding `slots`. */
  function {:induction false} RatingErrors(slots: seq<Option<string>>, first: nat): (errors: seq<FormError>)
    ensures forall n: nat :: (exists m :: FieldError(RatingField(n), m) in errors) <==>
      first <= n < first + |slots| && CleanRating(slots[n - first]).RatingInvalid?
    ensures forall e :: e in errors ==> e.FieldError? && e.field.RatingField?
    ensures errors == [] <==> forall i :: 0 <= i < |slots| ==> CleanRating(slots[i]).RatingValid?
    decreases |slots|
  {
    if slots == [] then []
    else
      var rest := RatingErrors(slots[1..], first + 1);
      assert forall i :: 1 <= i < |slots| ==> slots[1..][i - 1] == slots[i];
      RatingErrorsOf(first, slots[0]) + rest
  }

  /** Every field of the form cleans without error. */
  predicate FieldsValid(p: FeedbackPost, categories: seq<string>) {
    && CleanCategory(p.category, categories).Valid?
    && CleanInputMethod(p.inputMethod).Valid?
    && forall i :: 0 <= i < 5 ==> CleanRating(p.ratings.Slots()[i]).RatingValid?
  }

  /**
   The cleaned data the field-by-field pass of `is_valid()` leaves for
   `clean()`. Text, audio and the anonymity box are optional and always clean;
   the text field is the model form's default `CharField`, which strips
   surrounding whitespace.
   */
  function CleanedData(p: FeedbackPost, categories: seq<string>): (d: FeedbackInput)
    ensures d.category.Some? <==> CleanCategory(p.category, categories).Valid?
    ensures d.category.Some? ==> p.category == d.category
    ensures d.inputMethod.Some? <==> CleanInputMethod(p.inputMethod).Valid?
    ensures d.inputMethod.Some? ==> p.inputMethod == Some(InputMethodKey(d.inputMethod.value))
    ensures d.text == Strip(p.text) && d.audio == p.audio && d.isAnonymous == p.isAnonymous
    ensures HasText(d) <==> !IsBlank(p.text)
    ensures d.ratings == CleanRatings(p.ratings)
  {
    var category := CleanCategory(p.category, categories);
    var inputMethod := CleanInputMethod(p.inputMethod);
    FeedbackInput(
      if category.Valid? then Some(category.value) else None,
      if inputMethod.Valid? then Some(inputMethod.value) else None,
      Strip(p.text), p.audio, CleanRatings(p.ratings), p.isAnonymous)
  }

  /** The errors of the field-by-field pass, each attached to the field that failed. */
  function FieldErrors(p: FeedbackPost, categories: seq<string>): (errors: seq<FormError>)
    ensures errors == [] <==> FieldsValid(p, categories)
    ensures (exists m :: FieldError(CategoryField, m) in errors) <==> !CleanCategory(p.category, categories).Valid?
    ensures (exists m :: FieldError(InputMethodField, m) in errors) <==> !CleanInputMethod(p.inputMethod).Valid?
    ensures forall n: nat :: (exists m :: FieldError(RatingField(n), m) in errors) <==>
      1 <= n <= 5 && CleanRating(p.ratings.Slots()[n - 1]).RatingInvalid?
    ensures forall e :: e in errors ==> e.FieldError?
  {
    var category := ErrorsOf(CategoryField, CleanCategory(p.category, categories));
    var inputMethod := ErrorsOf(InputMethodField, CleanInputMethod(p.inputMethod));
    var ratings := RatingErrors(p.ratings.Slots(), 1);
    var errors := category + inputMethod + ratings;
    assert forall e :: e in errors <==> e in category || e in inputMethod || e in ratings;
    assert errors == [] <==> category == [] && inputMethod == [] && ratings == [];
    assert forall n: nat, m :: FieldError(RatingField(n), m) in errors <==> FieldError(RatingField(n), m) in ratings;
    errors
  }

  /**
   `form.is_valid()`: the field errors, then those `clean()` adds on the data
   the fields left. The form is valid exactly when every field cleans and the
   acceptance rule holds.
   */
  function FormErrors(p: FeedbackPost, categories: seq<string>): (errors: seq<FormError>)
    ensures errors == [] <==> FieldsValid(p, categories) && Acceptable(CleanedData(p, categories))
    ensures FieldErrors(p, categories) <= errors
  {
    FieldErrors(p, categories) + Clean(CleanedData(p, categories)).errors
  }

  /** A submission without a category is refused with Django's required-field error on that field. */
  lemma MissingCategoryRejected(p: FeedbackPost, categories: seq<string>)
    requires p.category == None || p.category == Some("")
    ensures FieldError(CategoryField, RequiredMessage) in FormErrors(p, categories)
  {
    assert FieldErrors(p, categories)[0] == FieldError(CategoryField, RequiredMessage);
  }

  /** A rating outside the choices makes the form invalid, even when the rest would be accepted. */
  lemma InvalidRatingRejected(p: FeedbackPost, categories: seq<string>, n: nat)
    requires 1 <= n <= 5 && CleanRating(p.ratings.Slots()[n - 1]).RatingInvalid?
    ensures FormErrors(p, categories) != []
  {
  }

  // ---------------------------------------------------------------------------
  // Sign-up form

  const EnrollmentTakenMessage := "This Enrollment ID is already registered. Please try to login."
  const EmailTakenMessage := "This email address is already registered."

  /** `SignupForm.clean_enrollment_id`: the id must not already be a username. */
  function CleanEnrollmentId(enrollmentId: string, usernames: set<string>): (r: FieldResult<string>)
    ensures r.Valid? <==> enrollmentId !in usernames
    ensures r.Valid? ==> r.value == enrollmentId
  {
    if enrollmentId in usernames then Invalid(EnrollmentTakenMessage) else Valid(enrollmentId)
  }

  /**
   `SignupForm.clean_email`: the address is lower-cased first, the lower-cased
   address is checked against the registered ones, and it is what is kept.
   */
  function CleanEmail(email: string, registered: set<string>): (r: FieldResult<string>)
    ensures r.Valid? <==> Lower(email) !in registered
    ensures r.Valid? ==> r.value == Lower(email) && Lower(r.value) == r.value
  {
    LowerIdempotent(email);
    if Lower(email) in registered then Invalid(EmailTakenMessage) else Valid(Lower(email))
  }

  /** Two addresses that differ only in letter case are cleaned alike. */
  lemma CleanEmailCaseInsensitive(a: string, b: string, registered: set<string>)
    requires |a| == |b|
    requires forall i :: 0 <= i < |a| ==> LowerChar(a[i]) == LowerChar(b[i])
    ensures CleanEmail(a, registered) == CleanEmail(b, registered)
  {
    assert Lower(a) == Lower(b);
  }

  /**
   `full_name.split(' ', 1)`: the part before the first space, and the rest
   after it when there is a space.
   */
  function SplitFullName(name: string): (r: (string, Option<string>))
    ensures ' ' !in r.0
    ensures r.1.None? <==> ' ' !in name
    ensures r.1.None? ==> r.0 == name
    ensures r.1.Some? ==> name == r.0 + " " + r.1.value
  {
    var i := IndexOf(name, ' ');
    if i < 0 then (name, None)
    else
      assert name == name[..i] + " " + name[i + 1..];
      (name[..i], Some(name[i + 1..]))
  }

  /** Splitting a name built from a space-free first part and any rest recovers both. */
  lemma SplitFullNameJoin(first: string, rest: string)
    requires ' ' !in first
    ensures SplitFullName(first + " " + rest) == (first, Some(rest))
  {
    var name := first + " " + rest;
    var r := SplitFullName(name);
    assert name[|first|] == ' ';
    assert |r.0| == |first|;
    assert r.0 == name[..|r.0|] == first;
  }

  /** The sign-up form's `cleaned_data` as `save` reads it. */
  datatype SignupInput = SignupInput(
    enrollmentId: string,
    email: string,
    password: string,
    department: nat,
    batchStartYear: int,
    fullName: string,
    photo: Option<string>)

  datatype SignupOutcome = Registered(user: User, profile: Profile) | Rejected(errors: seq<string>)

  /**
   `SignupForm.save` on already cleaned data: an inactive user named after the
   enrollment id, first/last name split from the full name, and an unverified
   student profile whose enrollment number mirrors the login id.
   */
  function SaveSignup(d: SignupInput, userId: nat): (r: (User, Profile))
    ensures r.0.id == userId && r.1.userId == userId
    ensures r.0.username == d.enrollmentId && r.0.email == d.email
    ensures !r.0.isActive
    ensures r.1.role == Student && !r.1.isVerified
    ensures r.1.enrollmentNo == Some(d.enrollmentId)
    ensures r.1.department == Some(d.department) && r.1.batchStartYear == Some(d.batchStartYear)
    ensures d.fullName == "" ==> r.0.firstName == "" && r.0.lastName == ""
    ensures d.fullName != "" && ' ' !in d.fullName ==> r.0.firstName == d.fullName && r.0.lastName == ""
    ensures d.fullName != "" && ' ' in d.fullName ==>
      ' ' !in r.0.firstName && d.fullName == r.0.firstName + " " + r.0.lastName
  {
    var parts := SplitFullName(d.fullName);
    var first := if d.fullName != "" then parts.0 else "";
    var last := if d.fullName != "" && parts.1.Some? then parts.1.value else "";
    var user := User(userId, d.enrollmentId, d.email, first, last, false);
    var profile := Profile(userId, Some(d.fullName), Some(d.enrollmentId), Student,
                           Some(d.department), Some(d.batchStartYear), d.photo, DefaultIsVerified);
    (user, profile)
  }

  /**
   The whole sign-up: both uniqueness checks, then the save. The user keeps the
   lower-cased address, and is created exactly when neither the id nor the
   lower-cased address is taken.
   */
  function Signup(d: SignupInput, usernames: set<string>, emails: set<string>, userId: nat): (r: SignupOutcome)
    ensures r.Registered? <==> d.enrollmentId !in usernames && Lower(d.email) !in emails
    ensures r.Registered? ==> r.user.email == Lower(d.email) && r.user.username == d.enrollmentId
    ensures r.Registered? ==> !r.user.isActive && !r.profile.isVerified && r.profile.role == Student
    ensures r.Rejected? ==> 1 <= |r.errors| <= 2
  {
    var id := CleanEnrollmentId(d.enrollmentId, usernames);
    var email := CleanEmail(d.email, emails);
    if id.Valid? && email.Valid? then
      var saved := SaveSignup(d.(email := email.value), userId);
      Registered(saved.0, saved.1)
    else
      Rejected((if id.Invalid? then [id.message] else []) + (if email.Invalid? then [email.message] else []))
  }
}

=== FILE: guards.dfy ===
/**
 Who may see or change what: viewing a feedback, deleting it, revealing the
 identity behind an anonymous feedback, and a coordinator approving or
 rejecting a student registration. Each guarded action either is refused and
 changes nothing, or applies a one-field update (or one deletion).
 */
module Guards {
  import opened Wrappers
  import opened Models

  /** The signed-in user: their id and, when they have one, their profile. */
  datatype Actor = Actor(userId: nat, profile: Option<Profile>)

  predicate IsCoordinator(a: Actor) {
    a.profile.Some? && a.profile.value.role == Coordinator
  }

  /**
   The view guard: the owner may view a feedback, and so may a coordinator
   whose department is the department recorded at submission.
   */
  predicate CanView(a: Actor, f: Feedback) {
    f.student == a.userId || (IsCoordinator(a) && f.department == a.profile.value.department)
  }

  /** The position of the row with id `id`, if there is one. */
  function Find(store: seq<Feedback>, id: nat): (r: Option<nat>)
    ensures r.Some? ==> r.value < |store| && store[r.value].id == id
    ensures r.None? <==> forall i :: 0 <= i < |store| ==> store[i].id != id
  {
    if |store| == 0 then None
    else if store[|store| - 1].id == id then Some(|store| - 1)
    else
      var r := Find(store[..|store| - 1], id);
      assert forall i :: 0 <= i < |store| - 1 ==> store[..|store| - 1][i] == store[i];
      r
  }

  /** Primary keys are unique. */
  predicate UniqueIds(store: seq<Feedback>) {
    forall i, j :: 0 <= i < j < |store| ==> store[i].id != store[j].id
  }

  datatype Dashboard = StudentDashboard | CoordinatorDashboard

  datatype ViewOutcome = ViewNotFound | ViewDenied(redirect: Dashboard) | Shown(feedback: Feedback)

  /**
   `view_feedback_detail`: an unknown id is not found; a viewer the guard
   refuses is sent to their own dashboard; otherwise the feedback is shown.
   A coordinator is never shown another department's feedback they do not own.
   */
  function ViewFeedback(store: seq<Feedback>, a: Actor, id: nat): (r: ViewOutcome)
    requires UniqueIds(store)
    ensures r.ViewNotFound? <==> forall i :: 0 <= i < |store| ==> store[i].id != id
    ensures r.Shown? <==> exists i :: 0 <= i < |store| && store[i].id == id && CanView(a, store[i])
    ensures r.Shown? ==> r.feedback in store && r.feedback.id == id
    ensures r.Shown? ==>
      r.feedback.student == a.userId
      || (a.profile.Some? && a.profile.value.role == Coordinator
          && r.feedback.department == a.profile.value.department)
    ensures r.ViewDenied? ==>
      (r.redirect == CoordinatorDashboard <==> IsCoordinator(a))
  {
    match Find(store, id)
    case None => ViewNotFound
    case Some(i) =>
      assert forall j :: 0 <= j < |store| && store[j].id == id ==> j == i;
      if CanView(a, store[i]) then Shown(store[i])
      else ViewDenied(if IsCoordinator(a) then CoordinatorDashboard else StudentDashboard)
  }

  /**
   The department comparison is plain equality of nullable references, so a
   coordinator without a department may view every feedback whose department
   has been deleted (both sides are null).
   */
  lemma NullDepartmentsMatch(a: Actor, f: Feedback)
    requires IsCoordinator(a) && a.profile.value.department.None? && f.department.None?
    ensures CanView(a, f)
  {
  }

  datatype Status = Done | NotFound | Denied | NotAnonymous

  /** The status of a guarded action together with the store it leaves behind. */
  datatype Outcome<S> = Outcome(status: Status, store: S)

  /** The rows of `store` other than the one with id `id`, in order. */
  function Without(store: seq<Feedback>, id: nat): (r: seq<Feedback>)
    ensures forall f :: f in r <==> f in store && f.id != id
    ensures |r| <= |store|
  {
    if |store| == 0 then []
    else (if store[0].id == id then [] else [store[0]]) + Without(store[1..], id)
  }

  /** With unique ids, removing an existing id removes exactly one row. */
  lemma {:induction false} WithoutRemovesOne(store: seq<Feedback>, i: nat)
    requires UniqueIds(store) && i < |store|
    ensures |Without(store, store[i].id)| == |store| - 1
  {
    if i == 0 {
      WithoutAbsent(store[1..], store[0].id);
    } else {
      assert UniqueIds(store[1..]);
      WithoutRemovesOne(store[1..], i - 1);
    }
  }

  lemma {:induction false} WithoutAbsent(store: seq<Feedback>, id: nat)
    requires forall i :: 0 <= i < |store| ==> store[i].id != id
    ensures Without(store, id) == store
  {
    if |store| > 0 {
      WithoutAbsent(store[1..], id);
    }
  }

  /**
   `delete_feedback_view`: only the owner deletes, and then exactly that row
   goes; an unknown id or any other actor leaves the store as it was.
   */
  function DeleteFeedback(store: seq<Feedback>, a: Actor, id: nat): (r: Outcome<seq<Feedback>>)
    requires UniqueIds(store)
    ensures r.status != Done ==> r.store == store
    ensures r.status == NotFound <==> forall i :: 0 <= i < |store| ==> store[i].id != id
    ensures r.status == Done <==> exists i :: 0 <= i < |store| && store[i].id == id && store[i].student == a.userId
    ensures r.status == Done ==>
      |r.store| == |store| - 1 && forall f :: f in r.store <==> f in store && f.id != id
  {
    match Find(store, id)
    case None => Outcome(NotFound, store)
    case Some(i) =>
      if store[i].student != a.userId then Outcome(Denied, store)
      else
        WithoutRemovesOne(store, i);
        Outcome(Done, Without(store, id))
  }

  /** The only change revealing an identity makes to a feedback. */
  function Reveal(f: Feedback): Feedback {
    f.(anonymityRevoked := true)
  }

  /**
   `revoke_anonymity_view`: only the owner of an anonymous feedback can reveal
   their identity; it sets `anonymity_revoked` on that row and nothing else.
   */
  function RevokeAnonymity(store: seq<Feedback>, a: Actor, id: nat): (r: Outcome<seq<Feedback>>)
    requires UniqueIds(store)
    ensures UniqueIds(r.store)
    ensures |r.store| == |store|
    ensures r.status != Done ==> r.store == store
    ensures r.status == Done <==>
      exists i :: 0 <= i < |store| && store[i].id == id && store[i].student == a.userId && store[i].isAnonymous
    ensures forall i :: 0 <= i < |store| ==>
      r.store[i] == store[i] || (r.status == Done && r.store[i] == store[i].(anonymityRevoked := true))
    ensures forall i :: 0 <= i < |store| && store[i].id != id ==> r.store[i] == store[i]
    ensures r.status == Done ==>
      forall i :: 0 <= i < |store| && store[i].id == id ==> r.store[i] == store[i].(anonymityRevoked := true)
  {
    match Find(store, id)
    case None => Outcome(NotFound, store)
    case Some(i) =>
      if store[i].student != a.userId then
        assert forall j :: 0 <= j < |store| && store[j].id == id ==> j == i;
        Outcome(Denied, store)
      else if !store[i].isAnonymous then
        assert forall j :: 0 <= j < |store| && store[j].id == id && store[j].isAnonymous ==> j != i;
        Outcome(NotAnonymous, store)
      else Outcome(Done, store[i := Reveal(store[i])])
  }

  /** Revealing is one-way: no row that was revealed is ever un-revealed. */
  lemma RevokeMonotone(store: seq<Feedback>, a: Actor, id: nat)
    requires UniqueIds(store)
    ensures forall i :: 0 <= i < |store| && store[i].anonymityRevoked ==>
      RevokeAnonymity(store, a, id).store[i].anonymityRevoked
  {
  }

  /** Revealing twice is revealing once. */
  lemma RevokeIdempotent(store: seq<Feedback>, a: Actor, id: nat)
    requires UniqueIds(store)
    ensures var once := RevokeAnonymity(store, a, id).store;
      RevokeAnonymity(once, a, id).store == once
  {
    var once := RevokeAnonymity(store, a, id).store;
    match Find(store, id)
    case None =>
    case Some(i) =>
      assert Find(once, id) == Some(i);
  }

  // ---------------------------------------------------------------------------
  // Registration approval

  /** A user together with their profile. */
  datatype Account = Account(user: User, profile: Profile)

  /** The account `get_object_or_404(User, id=..., profile__role='STUDENT')` finds. */
  function FindStudent(accounts: seq<Account>, userId: nat): (r: Option<nat>)
    ensures r.Some? ==>
      r.value < |accounts| && accounts[r.value].user.id == userId && accounts[r.value].profile.role == Student
    ensures r.None? <==>
      forall i :: 0 <= i < |accounts| ==> !(accounts[i].user.id == userId && accounts[i].profile.role == Student)
  {
    if |accounts| == 0 then None
    else
      var last := accounts[|accounts| - 1];
      if last.user.id == userId && last.profile.role == Student then Some(|accounts| - 1)
      else
        var r := FindStudent(accounts[..|accounts| - 1], userId);
        assert forall i :: 0 <= i < |accounts| - 1 ==> accounts[..|accounts| - 1][i] == accounts[i];
        r
  }

  /** The coordinator's department matches the student's (null matching null). */
  predicate SameDepartment(acc: Account, coordinatorDepartment: Option<nat>) {
    acc.profile.department == coordinatorDepartment
  }

  /**
   `approve_student_view`: a coordinator approves a student of their own
   department by activating the user and verifying the profile; nothing else
   changes, and a student of another department is left untouched.
   */
  function ApproveStudent(accounts: seq<Account>, coordinatorDepartment: Option<nat>, studentId: nat)
    : (r: Outcome<seq<Account>>)
    ensures |r.store| == |accounts|
    ensures r.status != Done ==> r.store == accounts
    ensures r.status == Done <==>
      FindStudent(accounts, studentId).Some?
      && SameDepartment(accounts[FindStudent(accounts, studentId).value], coordinatorDepartment)
    ensures r.status == Done ==>
      var i := FindStudent(accounts, studentId).value;
      && r.store[i].user == accounts[i].user.(isActive := true)
      && r.store[i].profile == accounts[i].profile.(isVerified := true)
      && forall j :: 0 <= j < |accounts| && j != i ==> r.store[j] == accounts[j]
  {
    match FindStudent(accounts, studentId)
    case None => Outcome(NotFound, accounts)
    case Some(i) =>
      if !SameDepartment(accounts[i], coordinatorDepartment) then Outcome(Denied, accounts)
      else
        var acc := accounts[i];
        Outcome(Done, accounts[i := Account(acc.user.(isActive := true), acc.profile.(isVerified := true))])
  }

  /** After an approval the student's profile reads as verified. */
  lemma ApprovedProfileReadsVerified(accounts: seq<Account>, coordinatorDepartment: Option<nat>, studentId: nat)
    requires ApproveStudent(accounts, coordinatorDepartment, studentId).status == Done
    ensures var i := FindStudent(accounts, studentId).value;
      var acc := ApproveStudent(accounts, coordinatorDepartment, studentId).store[i];
      var s := ProfileStr(acc.profile, acc.user.username);
      acc.user.isActive && |s| >= 11 && s[|s| - 11..] == " (Verified)"
  {
    var i := FindStudent(accounts, studentId).value;
    var acc := ApproveStudent(accounts, coordinatorDepartment, studentId).store[i];
    ProfileStrParts(acc.profile, acc.user.username);
  }

  /** The accounts other than user `userId`'s, in order. */
  function AccountsWithout(accounts: seq<Account>, userId: nat): (r: seq<Account>)
    ensures forall acc :: acc in r <==> acc in accounts && acc.user.id != userId
  {
    if |accounts| == 0 then []
    else (if accounts[0].user.id == userId then [] else [accounts[0]]) + AccountsWithout(accounts[1..], userId)
  }

  /** The feedback rows not owned by user `userId`, in order. */
  function FeedbackNotBy(store: seq<Feedback>, userId: nat): (r: seq<Feedback>)
    ensures forall f :: f in r <==> f in store && f.student != userId
  {
    if |store| == 0 then []
    else (if store[0].student == userId then [] else [store[0]]) + FeedbackNotBy(store[1..], userId)
  }

  /**
   `reject_student_view`: a coordinator rejects a student of their own
   department by deleting the user, which also deletes their profile and,
   by cascade, their feedback. Nothing is deleted otherwise.
   */
  function RejectStudent(accounts: seq<Account>, store: seq<Feedback>, coordinatorDepartment: Option<nat>, studentId: nat)
    : (r: Outcome<(seq<Account>, seq<Feedback>)>)
    ensures r.status != Done ==> r.store == (accounts, store)
    ensures r.status == Done <==>
      FindStudent(accounts, studentId).Some?
      && SameDepartment(accounts[FindStudent(accounts, studentId).value], coordinatorDepartment)
    ensures r.status == Done ==>
      (forall acc :: acc in r.store.0 <==> acc in accounts && acc.user.id != studentId)
      && (forall f :: f in r.store.1 <==> f in store && f.student != studentId)
  {
    match FindStudent(accounts, studentId)
    case None => Outcome(NotFound, (accounts, store))
    case Some(i) =>
      if !SameDepartment(accounts[i], coordinatorDepartment) then Outcome(Denied, (accounts, store))
      else Outcome(Done, (AccountsWithout(accounts, studentId), FeedbackNotBy(store, studentId)))
  }
}

=== FILE: models.dfy ===
/**
 The persistent records of the portal (departments are referred to by id),
 their choice lists and defaults, and the display strings the records render.
 Foreign keys are ids; a nullable foreign key is an `Option`.
 */
module Models {
  import opened Wrappers
  import opened Strings

  // ---------------------------------------------------------------------------
  // Choice lists

  datatype Role = Student | Coordinator | Admin

  /** `Profile.ROLE_CHOICES` as (stored value, display label) pairs. */
  const RoleChoices: seq<(string, string)> :=
    [("STUDENT", "Student"), ("COORDINATOR", "Coordinator"), ("ADMIN", "Admin")]

  function RoleKey(r: Role): string {
    match r
    case Student => "STUDENT"
    case Coordinator => "COORDINATOR"
    case Admin => "ADMIN"
  }

  /** `get_role_display()`: the label paired with the role's stored value. */
  function RoleDisplay(r: Role): (display: string)
    ensures (RoleKey(r), display) in RoleChoices
  {
    match r
    case Student => "Student"
    case Coordinator => "Coordinator"
    case Admin => "Admin"
  }

  datatype Sentiment = Positive | Negative | Neutral

  /** `Feedback.SENTIMENT_CHOICES`. */
  const SentimentChoices: seq<(string, string)> :=
    [("POSITIVE", "Positive"), ("NEGATIVE", "Negative"), ("NEUTRAL", "Neutral")]

  /** The stored value of a sentiment. */
  function SentimentKey(s: Sentiment): string {
    match s
    case Positive => "POSITIVE"
    case Negative => "NEGATIVE"
    case Neutral => "NEUTRAL"
  }

  /**
   The sentiment whose stored value is `k`: defined exactly for the three
   stored values of `SENTIMENT_CHOICES`, and inverse to `SentimentKey`.
   */
  function ParseSentiment(k: string): (r: Option<Sentiment>)
    ensures r.Some? <==> exists i :: 0 <= i < |SentimentChoices| && SentimentChoices[i].0 == k
    ensures forall s :: r == Some(s) <==> SentimentKey(s) == k
  {
    if k == "POSITIVE" then assert SentimentChoices[0].0 == k; Some(Positive)
    else if k == "NEGATIVE" then assert SentimentChoices[1].0 == k; Some(Negative)
    else if k == "NEUTRAL" then assert SentimentChoices[2].0 == k; Some(Neutral)
    else None
  }

  datatype InputMethod = Text | Audio

  /** `Feedback.INPUT_METHOD_CHOICES`. */
  const InputMethodChoices: seq<(string, string)> :=
    [("TEXT", "Text Input"), ("AUDIO", "Audio Recording")]

  /** The key an input method is stored under. */
  function InputMethodKey(m: InputMethod): string {
    match m
    case Text => "TEXT"
    case Audio => "AUDIO"
  }

  /** The choice keys are exactly the two methods' keys, and the methods' keys differ. */
  lemma InputMethodKeys()
    ensures forall k :: Lookup(InputMethodChoices, k).Some? <==> k == InputMethodKey(Text) || k == InputMethodKey(Audio)
    ensures InputMethodKey(Text) != InputMethodKey(Audio)
  {
    assert InputMethodChoices[0].0 == InputMethodKey(Text);
    assert InputMethodChoices[1].0 == InputMethodKey(Audio);
    assert InputMethodKey(Text)[0] != InputMethodKey(Audio)[0];
  }

  /** `FeedbackCategory.CATEGORY_CHOICES`, in declaration order. */
  const CategoryChoices: seq<(string, string)> := [
    ("TEACHING", "Teaching"),
    ("INFRASTRUCTURE", "Infrastructure"),
    ("TRANSPORT", "Transport"),
    ("EXTRACURRICULAR", "Extracurricular Activities"),
    ("STAFF_BEHAVIOUR", "Staff Behaviour"),
    ("CANTEEN", "Canteen"),
    ("LIBRARY", "Library")
  ]

  /** `dict(pairs).get(key)`: the value paired with the LAST occurrence of `key`. */
  function Lookup<V>(pairs: seq<(string, V)>, key: string): (r: Option<V>)
    ensures r.Some? <==> exists i :: 0 <= i < |pairs| && pairs[i].0 == key
    ensures r.Some? ==> exists i :: 0 <= i < |pairs| && pairs[i] == (key, r.value)
  {
    if |pairs| == 0 then None
    else
      var last := pairs[|pairs| - 1];
      var front := pairs[..|pairs| - 1];
      if last.0 == key then Some(last.1)
      else
        var r := Lookup(front, key);
        assert forall i :: 0 <= i < |front| ==> front[i] == pairs[i];
        r
  }

  /** With distinct keys, looking up the key of entry `i` yields entry `i`'s value. */
  lemma {:induction false} LookupDistinct<V>(pairs: seq<(string, V)>, i: nat)
    requires i < |pairs|
    requires forall a, b :: 0 <= a < b < |pairs| ==> pairs[a].0 != pairs[b].0
    ensures Lookup(pairs, pairs[i].0) == Some(pairs[i].1)
  {
    if i < |pairs| - 1 {
      var front := pairs[..|pairs| - 1];
      assert front[i] == pairs[i];
      assert pairs[|pairs| - 1].0 != pairs[i].0;
      LookupDistinct(front, i);
    }
  }

  /**
   The display name of a category key: its label in `CATEGORY_CHOICES`, or the
   key itself when the key is not one of the choices (what both
   `get_name_display()` and `category_names_map.get(key, key)` do).
   */
  function CategoryDisplay(key: string): (name: string)
    ensures forall i :: 0 <= i < |CategoryChoices| && CategoryChoices[i].0 == key ==>
      name == CategoryChoices[i].1
    ensures (forall i :: 0 <= i < |CategoryChoices| ==> CategoryChoices[i].0 != key) ==> name == key
  {
    CategoryKeysDistinct();
    Lookup(CategoryChoices, key).GetOr(key)
  }

  /** There are exactly seven categories and no key is declared twice. */
  lemma CategoryKeysDistinct()
    ensures |CategoryChoices| == 7
    ensures forall i, j :: 0 <= i < j < |CategoryChoices| ==> CategoryChoices[i].0 != CategoryChoices[j].0
  {
  }

  /** `Feedback.RATING_DESCRIPTIVE_LABELS.get(v)`. */
  function RatingLabel(v: int): (r: Option<string>)
    ensures r.Some? <==> 1 <= v <= 5
  {
    if v == 1 then Some("Very Poor")
    else if v == 2 then Some("Poor")
    else if v == 3 then Some("Average")
    else if v == 4 then Some("Good")
    else if v == 5 then Some("Excellent")
    else None
  }

  /** `Feedback.RATING_CHOICES_NUMERIC`, the label dictionary's items in key order. */
  const RatingChoicesNumeric: seq<(int, string)> :=
    [(1, "Very Poor"), (2, "Poor"), (3, "Average"), (4, "Good"), (5, "Excellent")]

  /** The numeric choices list exactly the label dictionary, keys 1..5 in order. */
  lemma RatingChoicesMatchLabels()
    ensures |RatingChoicesNumeric| == 5
    ensures forall i :: 0 <= i < 5 ==>
      RatingChoicesNumeric[i].0 == i + 1 && RatingLabel(i + 1) == Some(RatingChoicesNumeric[i].1)
    ensures forall v: int :: RatingLabel(v).Some? <==>
      exists i :: 0 <= i < 5 && RatingChoicesNumeric[i].0 == v
  {
    forall v: int ensures RatingLabel(v).Some? ==> exists i :: 0 <= i < 5 && RatingChoicesNumeric[i].0 == v {
      if RatingLabel(v).Some? {
        assert RatingChoicesNumeric[v - 1].0 == v;
      }
    }
  }

  // ---------------------------------------------------------------------------
  // Records

  /** One value for each rating column `rating1` .. `rating5`. */
  datatype Columns<T> = Columns(r1: T, r2: T, r3: T, r4: T, r5: T) {

    /** The list `[rating1, ..., rating5]` the views iterate over. */
    function Slots(): (s: seq<T>)
      ensures |s| == 5
    {
      [r1, r2, r3, r4, r5]
    }
  }

  /** The five independently optional rating columns. */
  type Ratings = Columns<Option<int>>

  /** `any(r is not None for r in ratings)`. */
  predicate AnyRated(ratings: Ratings) {
    exists i :: 0 <= i < 5 && ratings.Slots()[i].Some?
  }

  /** Every given rating is one of the numeric choices. */
  predicate InRange(ratings: Ratings) {
    forall i :: 0 <= i < 5 && ratings.Slots()[i].Some? ==> 1 <= ratings.Slots()[i].value <= 5
  }

  const NoRatings: Ratings := Columns(None, None, None, None, None)

  /** The authentication user a profile belongs to. */
  datatype User = User(id: nat, username: string, email: string, firstName: string, lastName: string, isActive: bool)

  datatype Profile = Profile(
    userId: nat,
    fullName: Option<string>,
    enrollmentNo: Option<string>,
    role: Role,
    department: Option<nat>,
    batchStartYear: Option<int>,
    photo: Option<string>,
    isVerified: bool)

  const DefaultIsVerified := false

  datatype Feedback = Feedback(
    id: nat,
    student: nat,               // id of the owning user
    category: string,           // the category's key, e.g. "TEACHING"
    department: Option<nat>,    // department_at_submission
    ratings: Ratings,
    inputMethod: InputMethod,
    text: Option<string>,
    audio: Option<string>,      // name of the stored audio file
    isAnonymous: bool,
    anonymityRevoked: bool,
    sentiment: Option<Sentiment>)

  const DefaultAnonymityRevoked := false

  /** Python truthiness of an optional string: present and non-empty. */
  predicate Truthy(s: Option<string>) {
    s.Some? && s.value != ""
  }

  /** `x and x.strip()`: present and not all whitespace. */
  predicate HasContent(s: Option<string>) {
    s.Some? && !IsBlank(s.value)
  }

  // ---------------------------------------------------------------------------
  // Display strings

  /** The anonymity part of `Feedback.__str__`. */
  function AnonymitySuffix(isAnonymous: bool, revoked: bool): (r: string)
    ensures !isAnonymous <==> r == ""
    ensures isAnonymous && !revoked <==> r == " (Anonymous)"
    ensures isAnonymous && revoked <==> r == " (Anonymity Revoked)"
  {
    if isAnonymous && !revoked then " (Anonymous)"
    else if isAnonymous && revoked then " (Anonymity Revoked)"
    else ""
  }

  /**
   `Feedback.__str__`, given the owner's username and the already formatted
   timestamp (`%Y-%m-%d %H:%M`).
   */
  function FeedbackStr(f: Feedback, username: string, timestamp: string): (r: string)
    ensures |r| >= 12 + |username| && r[..12 + |username|] == "Feedback by " + username
    ensures var tail := AnonymitySuffix(f.isAnonymous, f.anonymityRevoked) + " on " + timestamp;
      |r| >= |tail| && r[|r| - |tail|..] == tail
  {
    var head := "Feedback by " + username;
    var middle := " for " + CategoryDisplay(f.category);
    var tail := AnonymitySuffix(f.isAnonymous, f.anonymityRevoked) + " on " + timestamp;
    var r := head + middle + tail;
    assert r[..|head|] == head;
    assert r[|r| - |tail|..] == tail;
    r
  }

  /** `Profile.__str__`, given the owning user's username. */
  function ProfileStr(p: Profile, username: string): (r: string)
  {
    var displayName := if Truthy(p.fullName) then p.fullName.value else username;
    var status := if p.isVerified then " (Verified)" else " (Pending)";
    displayName + " - " + RoleDisplay(p.role) + status
  }

  /**
   What `Profile.__str__` shows: the full name when one is set and the username
   otherwise, then the role label, then the verification status.
   */
  lemma ProfileStrParts(p: Profile, username: string)
    ensures Truthy(p.fullName) ==> ProfileStr(p, username)[..|p.fullName.value|] == p.fullName.value
    ensures !Truthy(p.fullName) ==> ProfileStr(p, username)[..|username|] == username
    ensures var s := ProfileStr(p, username);
      p.isVerified <==> (|s| >= 11 && s[|s| - 11..] == " (Verified)")
    ensures var s := ProfileStr(p, username);
      !p.isVerified <==> (|s| >= 10 && s[|s| - 10..] == " (Pending)")
    ensures var s := ProfileStr(p, username);
      var name := if Truthy(p.fullName) then p.fullName.value else username;
      var role := " - " + RoleDisplay(p.role);
      |s| >= |name| + |role| && s[|name|..|name| + |role|] == role
  {
    var s := ProfileStr(p, username);
    if !p.isVerified {
      assert s[|s| - 10..] == " (Pending)";
      if |s| >= 11 {
        assert s[|s| - 11..][10] == s[|s| - 1] == ')';
        assert s[|s| - 11..][1] == s[|s| - 10..][0] == ' ';
      }
    } else {
      assert s[|s| - 11..] == " (Verified)";
      assert s[|s| - 10..][0] == s[|s| - 11..][1] == '(';
    }
  }

  /** `profile_photo_path`: the upload path of a profile photo. */
  function ProfilePhotoPath(username: string, filename: string): string {
    "profile_photos/" + username + "/" + filename
  }

  /**
   The photo path keeps username and filename apart: the folder is exactly the
   username (when it contains no `/`) and the rest is exactly the filename.
   */
  lemma PhotoPathParts(username: string, filename: string)
    requires '/' !in username
    ensures var p := ProfilePhotoPath(username, filename);
      var rest := p[|"profile_photos/"|..];
      p[..|"profile_photos/"|] == "profile_photos/"
      && IndexOf(rest, '/') == |username|
      && rest[..IndexOf(rest, '/')] == username
      && rest[IndexOf(rest, '/') + 1..] == filename
  {
    var p := ProfilePhotoPath(username, filename);
    var rest := p[|"profile_photos/"|..];
    assert rest == username + "/" + filename;
    assert rest[..|username|] == username;
    assert rest[|username|] == '/';
    assert rest[|username| + 1..] == filename;
  }

  /** The first batch year offered. */
  const FirstBatchYear := 2015

  /** `[(y, str(y)) for y in range(lo, hi)]`. */
  function YearChoices(lo: int, hi: int): (r: seq<(int, string)>)
    ensures |r| == if hi <= lo then 0 else hi - lo
    ensures forall i :: 0 <= i < |r| ==> r[i] == (lo + i, IntToString(lo + i))
    decreases hi - lo
  {
    if hi <= lo then [] else [(lo, IntToString(lo))] + YearChoices(lo + 1, hi)
  }

  /** `Profile.BATCH_YEAR_CHOICES` for a given current year: 2015 through next year. */
  function BatchYearChoices(currentYear: int): seq<(int, string)> {
    YearChoices(FirstBatchYear, currentYear + 2)
  }

  /** A year is offered exactly when it lies between 2015 and next year, inclusive. */
  lemma BatchYearMembership(currentYear: int, y: int)
    ensures (exists i :: 0 <= i < |BatchYearChoices(currentYear)| && BatchYearChoices(currentYear)[i].0 == y)
      <==> FirstBatchYear <= y <= currentYear + 1
  {
    var c := BatchYearChoices(currentYear);
    if FirstBatchYear <= y <= currentYear + 1 {
      assert c[y - FirstBatchYear].0 == y;
    }
  }
}

=== FILE: strings.dfy ===
/**
 The few pieces of Python's `str` that the portal relies on: `strip()`,
 `upper()`, `lower()`, `" ".join(...)`, `split(' ', 1)`, `str(int)`, and the
 ascending order the database uses for `order_by` on a text column.
 */
module Strings {

  /** Python's `str.isspace()` for one character: the characters `strip()` removes. */
  predicate IsSpace(c: char) {
    || c == ' ' || c == '\t' || c == '\n' || c == '\r'
    || c == '\U{000B}' || c == '\U{000C}'
    || ('\U{001C}' <= c <= '\U{001F}')
    || c == '\U{0085}' || c == '\U{00A0}' || c == '\U{1680}'
    || ('\U{2000}' <= c <= '\U{200A}')
    || c == '\U{2028}' || c == '\U{2029}' || c == '\U{202F}' || c == '\U{205F}' || c == '\U{3000}'
  }

  /** Every character is whitespace (so `s.strip()` is empty and `bool(s.strip())` is false). */
  predicate IsBlank(s: string) {
    forall i :: 0 <= i < |s| ==> IsSpace(s[i])
  }

  /** Neither end of `s` is whitespace. */
  predicate Trimmed(s: string) {
    s == [] || (!IsSpace(s[0]) && !IsSpace(s[|s| - 1]))
  }

  function TrimLeft(s: string): (r: string)
    ensures |r| <= |s| && r == s[|s| - |r|..]
    ensures IsBlank(s[..|s| - |r|])
    ensures r == [] || !IsSpace(r[0])
  {
    if |s| > 0 && IsSpace(s[0]) then
      var r := TrimLeft(s[1..]);
      assert s[..|s| - |r|] == [s[0]] + s[1..][..|s[1..]| - |r|];
      r
    else s
  }

  function TrimRight(s: string): (r: string)
    ensures |r| <= |s| && r == s[..|r|]
    ensures IsBlank(s[|r|..])
    ensures r == [] || !IsSpace(r[|r| - 1])
  {
    if |s| > 0 && IsSpace(s[|s| - 1]) then
      var r := TrimRight(s[..|s| - 1]);
      assert s[|r|..] == s[..|s| - 1][|r|..] + [s[|s| - 1]];
      r
    else s
  }

  /** Python's `s.strip()`. */
  function Strip(s: string): (r: string)
    ensures Trimmed(r)
    ensures r == [] <==> IsBlank(s)
    ensures IsBlank(r) <==> IsBlank(s)
  {
    var l := TrimLeft(s);
    var r := TrimRight(l);
    assert r == [] ==> IsBlank(s) by {
      if r == [] {
        assert l[|r|..] == l;
        assert s == s[..|s| - |l|] + l;
      }
    }
    assert r != [] ==> r[0] == l[0];
    r
  }

  /**
   Stripping undoes padding: whatever whitespace surrounds a trimmed word, `strip()`
   gives back the word itself.
   */
  lemma {:induction false} StripPadded(pre: string, w: string, post: string)
    requires IsBlank(pre) && IsBlank(post) && Trimmed(w)
    ensures Strip(pre + w + post) == w
  {
    if w == [] {
      assert IsBlank(pre + w + post) by {
        assert pre + w + post == pre + post;
      }
    } else {
      assert (w + post)[0] == w[0];
      assert pre + w + post == pre + (w + post);
      TrimLeftPadded(pre, w + post);
      TrimRightPadded(w, post);
    }
  }

  lemma {:induction false} TrimLeftPadded(pre: string, rest: string)
    requires IsBlank(pre)
    requires rest == [] || !IsSpace(rest[0])
    ensures TrimLeft(pre + rest) == rest
  {
    if pre == [] {
      assert pre + rest == rest;
    } else {
      assert (pre + rest)[1..] == pre[1..] + rest;
      TrimLeftPadded(pre[1..], rest);
    }
  }

  lemma {:induction false} TrimRightPadded(rest: string, post: string)
    requires IsBlank(post)
    requires rest == [] || !IsSpace(rest[|rest| - 1])
    ensures TrimRight(rest + post) == rest
  {
    if post == [] {
      assert rest + post == rest;
    } else {
      var s := rest + post;
      assert s[..|s| - 1] == rest + post[..|post| - 1];
      TrimRightPadded(rest, post[..|post| - 1]);
    }
  }

  /** Stripping twice is stripping once. */
  lemma StripIdempotent(s: string)
    ensures Strip(Strip(s)) == Strip(s)
  {
    var w := Strip(s);
    assert TrimLeft(w) == w;
    assert TrimRight(w) == w;
  }

  /**
   Python's `str.upper()` for one character, restricted to the mappings that can
   produce an ASCII letter: `a`..`z`, dotless `ı` (U+0131 -> `I`) and long `ſ`
   (U+017F -> `S`). Every other character is returned unchanged.
   */
  function UpperChar(c: char): char {
    if 'a' <= c <= 'z' then (c as int - 32) as char
    else if c == '\U{0131}' then 'I'
    else if c == '\U{017F}' then 'S'
    else c
  }

  /** Python's `str.lower()` for ASCII letters; every other character is unchanged. */
  function LowerChar(c: char): char {
    if 'A' <= c <= 'Z' then (c as int + 32) as char else c
  }

  function Upper(s: string): string {
    seq(|s|, i requires 0 <= i < |s| => UpperChar(s[i]))
  }

  function Lower(s: string): string {
    seq(|s|, i requires 0 <= i < |s| => LowerChar(s[i]))
  }

  /** Lower-casing twice is lower-casing once. */
  lemma LowerIdempotent(s: string)
    ensures Lower(Lower(s)) == Lower(s)
  {
    assert forall i :: 0 <= i < |s| ==> Lower(Lower(s))[i] == Lower(s)[i];
  }

  /** Python's `sep.join(parts)`. */
  function Join(sep: string, parts: seq<string>): string
    decreases |parts|
  {
    if |parts| == 0 then ""
    else if |parts| == 1 then parts[0]
    else parts[0] + sep + Join(sep, parts[1..])
  }

  /** Joining non-empty parts is empty exactly when there are no parts. */
  lemma {:induction false} JoinEmpty(sep: string, parts: seq<string>)
    requires forall i :: 0 <= i < |parts| ==> parts[i] != ""
    ensures Join(sep, parts) == "" <==> parts == []
  {
    if |parts| > 1 {
      assert parts[0] != "";
      assert |Join(sep, parts)| >= |parts[0]|;
    }
  }

  /** A join whose first part starts with a non-space character is not blank. */
  lemma JoinNotBlank(sep: string, parts: seq<string>)
    requires |parts| > 0 && |parts[0]| > 0 && !IsSpace(parts[0][0])
    ensures !IsBlank(Join(sep, parts))
  {
    assert Join(sep, parts)[0] == parts[0][0];
  }

  /** Position of the first occurrence of `c` in `s`, if any. */
  function IndexOf(s: string, c: char): (r: int)
    ensures -1 <= r < |s|
    ensures r == -1 <==> c !in s
    ensures r >= 0 ==> s[r] == c && c !in s[..r]
  {
    if |s| == 0 then -1
    else if s[0] == c then 0
    else
      var k := IndexOf(s[1..], c);
      if k == -1 then -1
      else
        assert s[..k + 1] == [s[0]] + s[1..][..k];
        k + 1
  }

  // ---------------------------------------------------------------------------
  // Decimal rendering, Python's `str(n)` for an int.

  function DigitChar(d: nat): char
    requires d < 10
  {
    ('0' as int + d) as char
  }

  predicate IsDigit(c: char) {
    '0' <= c <= '9'
  }

  function DigitValue(c: char): nat
    requires IsDigit(c)
  {
    c as int - '0' as int
  }

  function NatToString(n: nat): (r: string)
    ensures |r| > 0
    ensures forall i :: 0 <= i < |r| ==> IsDigit(r[i])
    ensures r[0] == '0' ==> n == 0
    decreases n
  {
    if n < 10 then [DigitChar(n)] else NatToString(n / 10) + [DigitChar(n % 10)]
  }

  /** Python's `str(i)` for an integer of either sign. */
  function IntToString(i: int): string {
    if i < 0 then "-" + NatToString(-i) else NatToString(i)
  }

  /** Reads back a string of decimal digits. */
  function ParseNat(s: string): nat
    requires forall i :: 0 <= i < |s| ==> IsDigit(s[i])
  {
    if |s| == 0 then 0 else ParseNat(s[..|s| - 1]) * 10 + DigitValue(s[|s| - 1])
  }

  /** `str(n)` is faithful: the digits it prints read back as `n`. */
  lemma {:induction false} NatToStringRoundTrip(n: nat)
    ensures ParseNat(NatToString(n)) == n
    decreases n
  {
    if n >= 10 {
      var s := NatToString(n);
      assert s[..|s| - 1] == NatToString(n / 10);
      NatToStringRoundTrip(n / 10);
    }
  }

  /** Distinct integers print differently. */
  lemma IntToStringInjective(a: int, b: int)
    requires IntToString(a) == IntToString(b)
    ensures a == b
  {
    if a < 0 && b < 0 {
      assert NatToString(-a) == IntToString(a)[1..] == IntToString(b)[1..] == NatToString(-b);
      NatToStringRoundTrip(-a);
      NatToStringRoundTrip(-b);
    } else if a >= 0 && b >= 0 {
      NatToStringRoundTrip(a);
      NatToStringRoundTrip(b);
    }
  }

  // ---------------------------------------------------------------------------
  // Ascending order of text keys (code-point lexicographic order, a proper
  // prefix sorting first), the order `order_by('<text column>')` produces.

  predicate Less(a: string, b: string)
    decreases |a|
  {
    if |b| == 0 then false
    else if |a| == 0 then true
    else if a[0] != b[0] then a[0] < b[0]
    else Less(a[1..], b[1..])
  }

  lemma {:induction false} LessIrreflexive(a: string)
    ensures !Less(a, a)
    decreases |a|
  {
    if |a| > 0 {
      LessIrreflexive(a[1..]);
    }
  }

  lemma {:induction false} LessTransitive(a: string, b: string, c: string)
    requires Less(a, b) && Less(b, c)
    ensures Less(a, c)
    decreases |a|
  {
    if |a| > 0 && a[0] == b[0] && b[0] == c[0] {
      LessTransitive(a[1..], b[1..], c[1..]);
    }
  }

  lemma {:induction false} LessTotal(a: string, b: string)
    requires a != b
    ensures Less(a, b) || Less(b, a)
    decreases |a|
  {
    if |a| > 0 && |b| > 0 && a[0] == b[0] {
      assert a == [a[0]] + a[1..] && b == [b[0]] + b[1..];
      LessTotal(a[1..], b[1..]);
    }
  }

  /** A shared prefix does not change the order. */
  lemma {:induction false} LessCommonPrefix(p: string, a: string, b: string)
    requires Less(a, b)
    ensures Less(p + a, p + b)
  {
    if |p| > 0 {
      assert (p + a)[0] == p[0] == (p + b)[0];
      assert (p + a)[1..] == p[1..] + a && (p + b)[1..] == p[1..] + b;
      LessCommonPrefix(p[1..], a, b);
    } else {
      assert p + a == a && p + b == b;
    }
  }
}

=== FILE: summarize.dfy ===
/**
 The coordinator's summarisation request: an all-or-nothing authorisation of
 the selected feedback ids, the structured context rendered from the selected
 rows, and the handling of the service's reply.
 */
module Summarize {
  import opened Wrappers
  import opened Strings
  import opened Models
  import opened Enrichment
  import opened Guards

  // ---------------------------------------------------------------------------
  // The batch check

  /** The rows of the coordinator's department whose id was requested, in store order. */
  function Matching(store: seq<Feedback>, ids: seq<int>, department: Option<nat>): (r: seq<Feedback>)
    ensures forall f :: f in r <==> f in store && f.id in ids && f.department == department
  {
    if |store| == 0 then []
    else
      var head := if store[0].id in ids && store[0].department == department then [store[0]] else [];
      head + Matching(store[1..], ids, department)
  }

  /** The matched rows keep the store's unique ids. */
  lemma {:induction false} MatchingUnique(store: seq<Feedback>, ids: seq<int>, department: Option<nat>)
    requires UniqueIds(store)
    ensures UniqueIds(Matching(store, ids, department))
  {
    if |store| > 0 {
      HeadIdUnique(store);
      var rest := Matching(store[1..], ids, department);
      MatchingUnique(store[1..], ids, department);
      var r := Matching(store, ids, department);
      if store[0].id in ids && store[0].department == department {
        forall i, j | 0 <= i < j < |r| ensures r[i].id != r[j].id {
          assert r[j] == rest[j - 1];
          assert rest[j - 1] in rest;
          if i > 0 {
            assert r[i] == rest[i - 1];
          }
        }
      } else {
        assert r == rest;
      }
    }
  }

  /** In a store with unique ids, the head's id occurs nowhere in the tail, which keeps unique ids. */
  lemma HeadIdUnique(store: seq<Feedback>)
    requires |store| > 0 && UniqueIds(store)
    ensures UniqueIds(store[1..])
    ensures forall f :: f in store[1..] ==> f.id != store[0].id
  {
    forall f | f in store[1..] ensures f.id != store[0].id {
      var k :| 0 <= k < |store[1..]| && store[1..][k] == f;
      assert store[k + 1] == f;
    }
  }

  /** The ids of the rows recorded for `department`. */
  function DepartmentIds(store: seq<Feedback>, department: Option<nat>): set<int> {
    set f | f in store && f.department == department :: f.id as int
  }

  /** No id is requested twice. */
  predicate NoDuplicates(ids: seq<int>) {
    forall i, j :: 0 <= i < j < |ids| ==> ids[i] != ids[j]
  }

  function ToSet(xs: seq<int>): (r: set<int>)
    ensures forall x :: x in r <==> x in xs
  {
    if |xs| == 0 then {} else {xs[0]} + ToSet(xs[1..])
  }

  /** A list has no duplicates when its head is not repeated and its tail has none. */
  lemma NoDuplicatesCons(xs: seq<int>)
    requires |xs| > 0
    ensures NoDuplicates(xs) <==> xs[0] !in xs[1..] && NoDuplicates(xs[1..])
  {
    var rest := xs[1..];
    if xs[0] !in rest && NoDuplicates(rest) {
      forall i, j | 0 <= i < j < |xs| ensures xs[i] != xs[j] {
        assert xs[j] == rest[j - 1];
        if i > 0 {
          assert xs[i] == rest[i - 1];
        }
      }
    }
    if NoDuplicates(xs) {
      forall i, j | 0 <= i < j < |rest| ensures rest[i] != rest[j] {
        assert rest[i] == xs[i + 1] && rest[j] == xs[j + 1];
      }
      forall k | 0 <= k < |rest| ensures rest[k] != xs[0] {
        assert rest[k] == xs[k + 1];
      }
    }
  }

  /** A list has at least as many entries as distinct values, as many exactly when it has no duplicates. */
  lemma {:induction false} ToSetCard(xs: seq<int>)
    ensures |ToSet(xs)| <= |xs|
    ensures |ToSet(xs)| == |xs| <==> NoDuplicates(xs)
  {
    if |xs| > 0 {
      var rest := xs[1..];
      ToSetCard(rest);
      NoDuplicatesCons(xs);
      if xs[0] in rest {
        assert ToSet(xs) == ToSet(rest);
      } else {
        assert ToSet(xs) == {xs[0]} + ToSet(rest);
        assert xs[0] !in ToSet(rest);
      }
    }
  }

  lemma SubsetCard(a: set<int>, b: set<int>)
    requires a <= b
    ensures |a| <= |b|
    ensures |a| == |b| ==> a == b
  {
    assert b == a + (b - a);
    assert a * (b - a) == {};
  }

  /** The ids of a list of rows. */
  function IdList(rows: seq<Feedback>): (r: seq<int>)
    ensures |r| == |rows|
    ensures forall i :: 0 <= i < |rows| ==> r[i] == rows[i].id
  {
    seq(|rows|, i requires 0 <= i < |rows| => rows[i].id as int)
  }

  lemma IdListDistinct(rows: seq<Feedback>)
    requires UniqueIds(rows)
    ensures NoDuplicates(IdList(rows))
  {
    forall i, j | 0 <= i < j < |rows| ensures IdList(rows)[i] != IdList(rows)[j] {
      assert rows[i].id != rows[j].id;
    }
  }

  lemma MatchingIdsContents(store: seq<Feedback>, ids: seq<int>, department: Option<nat>)
    ensures ToSet(IdList(Matching(store, ids, department))) == ToSet(ids) * DepartmentIds(store, department)
  {
    var m := Matching(store, ids, department);
    var got := ToSet(IdList(m));
    var want := ToSet(ids) * DepartmentIds(store, department);
    forall x | x in got ensures x in want {
      var k :| 0 <= k < |m| && IdList(m)[k] == x;
      assert m[k] in m;
    }
    forall x | x in want ensures x in got {
      var f :| f in store && f.department == department && f.id as int == x;
      assert f in m;
      var k :| 0 <= k < |m| && m[k] == f;
      assert IdList(m)[k] == x;
    }
  }

  /** The matching rows carry distinct ids: exactly the requested ids that the department has. */
  lemma MatchingIdSet(store: seq<Feedback>, ids: seq<int>, department: Option<nat>)
    requires UniqueIds(store)
    ensures |ToSet(ids) * DepartmentIds(store, department)| == |Matching(store, ids, department)|
  {
    var m := Matching(store, ids, department);
    MatchingUnique(store, ids, department);
    IdListDistinct(m);
    ToSetCard(IdList(m));
    MatchingIdsContents(store, ids, department);
  }

  /**
   The count check `count(matching rows) == len(ids)` accepts exactly the id
   lists that repeat no id and name only rows of the coordinator's department:
   a single foreign, unknown or repeated id rejects the whole batch.
   */
  lemma BatchCheckMeaning(store: seq<Feedback>, ids: seq<int>, department: Option<nat>)
    requires UniqueIds(store)
    ensures |Matching(store, ids, department)| == |ids| <==>
      NoDuplicates(ids) && forall k :: 0 <= k < |ids| ==> ids[k] in DepartmentIds(store, department)
  {
    var d := DepartmentIds(store, department);
    var want := ToSet(ids);
    MatchingIdSet(store, ids, department);
    ToSetCard(ids);
    SubsetCard(want * d, want);
    AllNamedIff(ids, d);
    assert want <= d <==> want * d == want;
  }

  /** Every id is named in `d` exactly when the set of ids lies inside `d`. */
  lemma AllNamedIff(ids: seq<int>, d: set<int>)
    ensures (forall k :: 0 <= k < |ids| ==> ids[k] in d) <==> ToSet(ids) <= d
  {
  }

  // ---------------------------------------------------------------------------
  // The rendered context

  /** Python's `"".join(parts)`. */
  function Concat(parts: seq<string>): string {
    if |parts| == 0 then "" else parts[0] + Concat(parts[1..])
  }

  /** One question line of an entry: the label and score when rated, `Not Rated` otherwise. */
  function RatingLine(question: string, rating: Option<int>): string {
    match rating
    case Some(v) => "  - \"" + question + "\": " + RatingLabel(v).GetOr("N/A") + " (" + IntToString(v) + "/5)\n"
    case None => "  - \"" + question + "\": Not Rated\n"
  }

  /**
   The ratings part of an entry: nothing for a category without questions,
   otherwise a heading and exactly one line per rating column, in order, each
   naming that column's question.
   */
  function RatingsBlock(category: string, ratings: Ratings): (r: string)
  {
    var qs := Questions(category);
    if qs == [] then ""
    else "- Ratings Given:\n" + Concat(seq(5, i requires 0 <= i < 5 => RatingLine(qs[i], ratings.Slots()[i])))
  }

  const CommentPrefix := "- Student's Comment: \""

  /** The comment part of an entry: the stripped text when there is any. */
  function CommentBlock(text: Option<string>): string {
    if HasContent(text) then CommentPrefix + Strip(text.value) + "\"\n" else ""
  }

  const EntrySeparator := "\n---\n\n"

  /** The heading line of an entry; it starts with a letter, so the context it opens is not blank. */
  function EntryHeader(f: Feedback): (r: string)
    ensures |r| > 0 && r[0] == 'F'
  {
    var r := "Feedback Entry #" + IntToString(f.id) + ":\n";
    assert r[0] == "Feedback Entry #"[0];
    r
  }

  /** Entries with different ids get different headings, so the summariser can tell them apart. */
  lemma EntryHeadersDistinct(f: Feedback, g: Feedback)
    requires f.id != g.id
    ensures EntryHeader(f) != EntryHeader(g)
  {
    var pre := "Feedback Entry #";
    var hf, hg := EntryHeader(f), EntryHeader(g);
    assert hf == pre + IntToString(f.id) + ":\n" && hg == pre + IntToString(g.id) + ":\n";
    assert hf[|pre|..|hf| - 2] == IntToString(f.id);
    assert hg[|pre|..|hg| - 2] == IntToString(g.id);
    if hf == hg {
      IntToStringInjective(f.id, g.id);
    }
  }

  /** The block rendered for one entry, separator included. */
  function EntryContext(f: Feedback): string {
    EntryHeader(f) + "- Category: " + CategoryDisplay(f.category) + "\n"
      + RatingsBlock(f.category, f.ratings) + CommentBlock(f.text) + EntrySeparator
  }

  /** `all_feedback_context`: the entries' blocks in order. */
  function Context(entries: seq<Feedback>): string {
    if |entries| == 0 then "" else EntryContext(entries[0]) + Context(entries[1..])
  }

  /**
   A rated column's line carries its label and its score out of five, an
   unrated column's line says `Not Rated`; either way the line names the
   column's question, and the two kinds of line never coincide.
   */
  lemma RatingLineShape(question: string, rating: Option<int>)
    ensures var line := RatingLine(question, rating);
      var head := "  - \"" + question + "\": ";
      |line| > |head| && line[..|head|] == head
      && (rating.None? <==> line[|head|..] == "Not Rated\n")
  {
    var line := RatingLine(question, rating);
    var head := "  - \"" + question + "\": ";
    assert line[..|head|] == head;
    if rating.Some? {
      var tail := RatingLabel(rating.value).GetOr("N/A") + " (" + IntToString(rating.value) + "/5)\n";
      assert line[|head|..] == tail;
      var n := IntToString(rating.value);
      assert tail[|tail| - 4..] == "/5)\n";
      assert "Not Rated\n"[6..] == "ted\n";
    }
  }

  /**
   The comment is rendered exactly when the text has content, and then it is
   the stripped text between quotes; for a category with questions the
   ratings part is a heading followed by exactly five lines.
   */
  lemma EntryParts(f: Feedback)
    ensures CommentBlock(f.text) != "" <==> HasContent(f.text)
    ensures HasContent(f.text) ==> CommentBlock(f.text) == CommentPrefix + Strip(f.text.value) + "\"\n"
    ensures Questions(f.category) == [] <==> RatingsBlock(f.category, f.ratings) == ""
    ensures Questions(f.category) != [] ==>
      RatingsBlock(f.category, f.ratings) == "- Ratings Given:\n" + Concat([
        RatingLine(Questions(f.category)[0], f.ratings.r1),
        RatingLine(Questions(f.category)[1], f.ratings.r2),
        RatingLine(Questions(f.category)[2], f.ratings.r3),
        RatingLine(Questions(f.category)[3], f.ratings.r4),
        RatingLine(Questions(f.category)[4], f.ratings.r5)])
  {
    var qs := Questions(f.category);
    if qs != [] {
      var lines := seq(5, i requires 0 <= i < 5 => RatingLine(qs[i], f.ratings.Slots()[i]));
      assert lines == [RatingLine(qs[0], f.ratings.r1), RatingLine(qs[1], f.ratings.r2),
        RatingLine(qs[2], f.ratings.r3), RatingLine(qs[3], f.ratings.r4), RatingLine(qs[4], f.ratings.r5)];
    }
  }

  /** Every entry block starts with its header, so a non-empty batch never renders blank context. */
  lemma {:induction false} ContextNotBlank(entries: seq<Feedback>)
    requires |entries| > 0
    ensures |Context(entries)| > 0 && Context(entries)[0] == 'F'
    ensures !IsBlank(Context(entries))
  {
    var e := EntryContext(entries[0]);
    assert EntryHeader(entries[0])[0] == 'F';
    assert e[0] == 'F';
    assert Context(entries)[0] == e[0];
  }

  // ---------------------------------------------------------------------------
  // The request

  /** What the summarisation request produced: the reply's parts, or an exception. */
  datatype SummaryReply = SummaryParts(parts: seq<string>) | SummaryRaised

  datatype Response =
    | ServiceUnavailable        // 503: no API key
    | BadRequest                // 400: missing or empty id list
    | Forbidden                 // 403: the batch check failed
    | NothingToSummarize
    | Summary(text: string)
    | ServiceError              // 500: the service raised

  const BlockedMessage :=
    "The AI was unable to generate a summary for this content, possibly due to safety filters or other restrictions."

  /**
   `summarize_feedback_view`. `ids` is `None` when the body has no list of ids.
   The service sees only the rendered context (the fixed instruction text
   around it is not modelled).
   */
  function SummarizeFeedback(
    keyConfigured: bool, ids: Option<seq<int>>, department: Option<nat>,
    store: seq<Feedback>, summarize: string -> SummaryReply): (r: Response)
    requires UniqueIds(store)
    ensures r == ServiceUnavailable <==> !keyConfigured
    ensures r == BadRequest <==> keyConfigured && (ids.None? || ids.value == [])
    ensures r == Forbidden <==>
      keyConfigured && ids.Some? && ids.value != []
      && !(NoDuplicates(ids.value)
           && forall k :: 0 <= k < |ids.value| ==> ids.value[k] in DepartmentIds(store, department))
    ensures r != NothingToSummarize
    ensures r.Summary? || r == ServiceError ==>
      var context := Context(Matching(store, ids.value, department));
      && |Matching(store, ids.value, department)| == |ids.value| > 0
      && (r == ServiceError <==> summarize(context).SummaryRaised?)
      && (r.Summary? && summarize(context).parts != [] ==> r.text == Concat(summarize(context).parts))
      && (r.Summary? && summarize(context).parts == [] ==> r.text == BlockedMessage)
  {
    if !keyConfigured then ServiceUnavailable
    else if ids.None? || ids.value == [] then BadRequest
    else
      var entries := Matching(store, ids.value, department);
      BatchCheckMeaning(store, ids.value, department);
      if |entries| != |ids.value| then Forbidden
      else
        var context := Context(entries);
        ContextNotBlank(entries);
        if IsBlank(context) then NothingToSummarize
        else
          match summarize(context)
          case SummaryRaised => ServiceError
          case SummaryParts(parts) => if parts != [] then Summary(Concat(parts)) else Summary(BlockedMessage)
  }

  /**
   The scenario of a coordinator asking for two ids of which the second
   belongs to another department: the whole request is refused.
   */
  lemma ForeignIdRejectsBatch(store: seq<Feedback>, summarize: string -> SummaryReply,
                              department: Option<nat>, mine: nat, foreign: nat)
    requires UniqueIds(store)
    requires forall f :: f in store && f.id == foreign ==> f.department != department
    ensures SummarizeFeedback(true, Some([mine as int, foreign as int]), department, store, summarize) == Forbidden
  {
    var ids := [mine as int, foreign as int];
    assert ids[1] !in DepartmentIds(store, department);
  }
}

=== FILE: wrappers.dfy ===
/** Python's "value or None", used for every nullable column and optional argument. */
module Wrappers {

  datatype Option<+T> = None | Some(value: T) {

    /** The value, or `default` when there is none (Python's `x if x is not None else d`). */
    function GetOr(default: T): T {
      match this
      case Some(v) => v
      case None => default
    }
  }
}
